=== FILE: README.md ===
# Twinfresh fan controller clients, modelled in Dafny

This project models the two UDP clients of the Twinfresh / Siku ventilation
fan integration:

- `SikuV2Api` (`custom_components/twinfresh/api_v2.py`). Requests are binary
  packets: prefix `FD FD`, protocol type `02`, the size octet `10`, the device
  id, the password length and password, a function code, a payload of command
  codes, and a two-octet additive checksum. Responses have the same layout.
  They carry the result function `06` and a stream of fields. A field is
  either `cmd value` or one of the markers `FC`, `FD`, `FE`, `FF`. The client
  turns the fields into a status record.
- `SikuV1Api` (`custom_components/twinfresh/api_v1.py`). Requests are the word
  `mobile`, the command octets and CR LF. Replies are status frames read at
  the fixed offsets 7 (power), 9 (mode), 19 (speed) and 23 (direction). The
  power, speed and direction commands first read the status and send their
  command only when the device's state differs. Sleep and party power on
  and then always send their command.

Modules, one per concern of the source:

| file | module | what |
|---|---|---|
| `base.dfy` | `Base` | octets, the exceptions as an `Error` datatype, `Result`/`Option`, sums, reversal, Python dict building |
| `hex.dfy` | `Hex` | the hex texts the source compares (`bytes.hex()`, `.upper()`, `bytes.fromhex`) |
| `checksum.dfy` | `ChecksumUnit` | `_checksum` and `_verify_checksum` |
| `packet_v2.dfy` | `PacketV2` | `_login_packet` and `_build_packet` |
| `response_v2.dfy` | `ResponseV2` | `_parse_response`, and a reference field encoding that it inverts |
| `translate_v2.dfy` | `TranslateV2` | `_translate_response` of the V2 client, and `MODES` |
| `tables.dfy` | `Tables` | the const.py tables, left abstract; direction-name resolution |
| `transport.dfy` | `Transport` | one send/receive exchange against an abstract device |
| `client_v2.dfy` | `ClientV2` | the public commands of `SikuV2Api` |
| `client_v1.dfy` | `ClientV1` | framing, fixed-offset translation and the commands of `SikuV1Api` |

Octets are `Base.Byte` (`nat < 256`). The source handles every octet as a
two-character hex text. The model keeps octets where the texts are only
carried along. It renders them with `Hex.Encode` where the source compares a
text with a table entry. The V2 client upper-cases its texts; the V1 client
keeps `bytes.hex()`'s lower case.

The device and the network are a parameter. A `Transport.Device` maps every
datagram sent so far to the reply to the newest one: a datagram, a timeout or
a socket fault. Each command returns the datagrams it sent, together with its
status or the exception it raised.

Two points of the wire format, as the code has them:

- The octet after the protocol type is the constant `10`
  (api_v2.py:20, api_v2.py:159). No separate id-length octet is sent.
  `PacketV2.SizeIdMatchesOnlySixteen` shows that this octet equals the id's
  length only for 16-character ids. A response is parsed by skipping
  `1 + hexlist[3]` octets, so in general only with 16-character ids does the
  parser land on the function octet of a packet laid out this way; other ids
  land there only when the octet the skip reads happens to fit.
  `ResponseV2.HeaderSkipLandsOnFunction` proves the 16-character case.
- The checksum covers the octets from index 2 on, not the `FD FD` prefix
  (api_v2.py:135). It is the text `f"{sum:04X}"` cut into two octets, and
  the model sends exactly those octets. From a sum of 65536 the text grows
  past four digits and its trailing digits are dropped: from 65536 to
  16^5 - 1 exactly the last one (`ChecksumUnit.FormatDropsLastDigit`). So in
  general the octets differ from the 16-bit checksum; see "## Findings".

## Model

| member | source | states |
|---|---|---|
| `ChecksumUnit.Checksum16` | custom_components/twinfresh/api_v2.py:130-138 | the two checksum octets, low first, spell the sum modulo 65536 |
| `ChecksumUnit.FormatChecksum` | custom_components/twinfresh/api_v2.py:137-138 | the two octets cut from the text `04X`; below 65536 they are the 16-bit checksum, low octet first |
| `ChecksumUnit.FormatDropsLastDigit` | custom_components/twinfresh/api_v2.py:137-138 | from 65536 to 16^5 - 1 the two octets spell the sum with its last hex digit dropped |
| `ChecksumUnit.FormatOverflowsAt65536` | custom_components/twinfresh/api_v2.py:137-138 | at sum 65536 the five-digit text yields `00 10` where the 16-bit checksum is `00 00` |
| `ChecksumUnit.FormatMissesLastDigit` | custom_components/twinfresh/api_v2.py:137-138 | sums 65536 and 65537 get the same checksum octets |
| `ChecksumUnit.Checksum` | custom_components/twinfresh/api_v2.py:130-138 | the checksum of a packet, as `_checksum` writes it, is two octets; when the sum of the octets after the prefix is below 65536 they spell that sum, low octet first |
| `ChecksumUnit.VerifyChecksum` | custom_components/twinfresh/api_v2.py:140-145 | a list of fewer than two octets raises IndexError; otherwise the check runs, and when the checked sum is below 65536 it passes exactly when the last two octets spell that sum |
| `ChecksumUnit.ReceivedChecksumFits` | custom_components/twinfresh/api_v2.py:196 | no datagram of at most 256 octets reaches the overflow, so the as-written and the intended checksum agree on every response |
| `ChecksumUnit.SingleOctetChangeDetected` | custom_components/twinfresh/api_v2.py:134-136 | with the intended 16-bit checksum, changing any one summed octet always changes the checksum |
| `PacketV2.BuildPacket` | custom_components/twinfresh/api_v2.py:151-172 | the packet's fields sit at their offsets: prefix, `02`, `10`, id, password length, password, function, payload, and the checksum of everything before it as `_checksum` writes it |
| `PacketV2.BuiltPacketVerifies` | custom_components/twinfresh/api_v2.py:140-145 | every built packet passes the checksum check |
| `PacketV2.SizeIdMatchesOnlySixteen` | custom_components/twinfresh/api_v2.py:156-160 | the size octet is the id's length if and only if the id has 16 characters |
| `PacketV2.ExampleReadPacket` | custom_components/twinfresh/api_v2.py:151-172 | the exact octets of a read of commands 01 and 02 with id "A1" and password "pw", checksum `71 01` |
| `ResponseV2.ReadField` | custom_components/twinfresh/api_v2.py:283-323 | one loop pass fails exactly on the markers FC and FF, with their exceptions, and otherwise advances the cursor by at least two |
| `ResponseV2.ParseFields` | custom_components/twinfresh/api_v2.py:280-323 | the field loop fails only on a refused marker; it stops with the fields read so far once fewer than three octets remain |
| `ResponseV2.ParseResponse` | custom_components/twinfresh/api_v2.py:241-328 | a wrong prefix, protocol type or result function is refused with its own exception; a header skip past the end, or a two-octet reply, raises IndexError; a success means every header check passed; with the header accepted, the result is the field loop's |
| `ResponseV2.HeaderSkipLandsOnFunction` | custom_components/twinfresh/api_v2.py:261-276 | with a 16-character id, the id and password skips land on the function octet of a built packet |
| `ResponseV2.ApplyLastWins` | custom_components/twinfresh/api_v2.py:317 | for each command the last field carrying it decides its value in the dict |
| `ResponseV2.ApplyKeeps` | custom_components/twinfresh/api_v2.py:317 | fields that never name a command leave its entry unchanged |
| `ResponseV2.ReadSized` | custom_components/twinfresh/api_v2.py:296-307 | an `FE n cmd v1..vn` field whose value ends within the datagram, also inside the checksum octets, stores its value reversed and moves past it |
| `ResponseV2.ReadPlain` | custom_components/twinfresh/api_v2.py:311-322 | at any cursor the loop visits, a plain `cmd value` field stores its value octet, the first checksum octet included, and moves on by two |
| `ResponseV2.ReadRejected` | custom_components/twinfresh/api_v2.py:292-322 | at any cursor the loop visits, an `FD cmd` field stores an empty value for `cmd`, the first checksum octet included, and moves on by two |
| `ResponseV2.ReadOneField` | custom_components/twinfresh/api_v2.py:283-323 | each kind of field, as the device writes it, is read back as written and the cursor moves past exactly its octets |
| `ResponseV2.ParseFieldsAt` | custom_components/twinfresh/api_v2.py:280-323 | a stream of encoded fields followed by the two checksum octets parses to the dict those fields describe |
| `ResponseV2.EncodedFieldsAt` | custom_components/twinfresh/api_v2.py:280-323 | concatenated field encodings lay the fields out one after the other, as the loop reads them |
| `ResponseV2.ParseBuiltResponse` | custom_components/twinfresh/api_v2.py:241-328 | round trip: with a 16-character id, parsing a response built from well-formed fields yields exactly their dict |
| `ResponseV2.SizedFieldClamps` | custom_components/twinfresh/api_v2.py:302 | an explicit size running past the end is not refused: the value is what the slice still holds, reversed, and the loop stops |
| `ResponseV2.MarkersOnlyBeforeChecksum` | custom_components/twinfresh/api_v2.py:281 | whether the field loop fails does not depend on the two checksum octets |
| `TranslateV2.Translate` | custom_components/twinfresh/api_v2.py:212-239 | an empty speed value raises ValueError and nothing else does; `is_on` holds exactly for on/off = 01; the direction is the table's name for the code or None, and None means oscillating |
| `TranslateV2.ModesTable` | custom_components/twinfresh/api_v2.py:51-58 | the duplicate key of MODES leaves `01` meaning sleep and `02` party, and nothing else |
| `TranslateV2.TranslateDefaults` | custom_components/twinfresh/api_v2.py:215-232 | a dict without the status fields gives off, speed 0, no direction but oscillating, auto |
| `TranslateV2.TranslateFields` | custom_components/twinfresh/api_v2.py:219-232 | speed is the value read as a number, oscillation follows the direction name, mode is sleep for 01, party for 02, auto otherwise |
| `TranslateV2.TranslateReadsStatusFieldsOnly` | custom_components/twinfresh/api_v2.py:212-239 | dicts that agree on on/off, speed, direction and mode translate alike |
| `Tables.FirstNamed` | custom_components/twinfresh/api_v2.py:101-104 | the index of the first DIRECTIONS entry carrying a name, or the entry count when none does |
| `Tables.ResolveDirection` | custom_components/twinfresh/api_v2.py:98-106 | a name resolves to the code of the first DIRECTIONS entry carrying it, as `list(values).index` finds it; a code that is not also a name stays itself; anything else is refused |
| `Hex.DecodeEncode` | custom_components/twinfresh/api_v2.py:178 | `bytes.fromhex` reads back the hex text of any octets, in either case |
| `Hex.EncodeInjective` | custom_components/twinfresh/api_v2.py:203 | octets have equal hex texts of one case if and only if they are equal |
| `Transport.Exchange` | custom_components/twinfresh/api_v2.py:183-196 | one datagram is appended to the trace; the reply is the device's datagram cut to the receive limit and arrives whole when it fits; no reply is a timeout and a socket fault is an error |
| `ClientV2.SendCommand` | custom_components/twinfresh/api_v2.py:174-210 | the built packet is sent; no reply, a socket fault or a reply under two octets each end with its error; otherwise the reply cut to 256 octets is returned exactly when its last two octets spell the sum after the prefix, and ChecksumMismatch is raised when they do not |
| `ClientV2.Status` | custom_components/twinfresh/api_v2.py:71-76 | one read of the six status commands; the exchange's error, else the parser's error, else the translation of the parsed reply |
| `ClientV2.WriteAndRead` | custom_components/twinfresh/api_v2.py:78-82 | a read-write request; when that exchange fails, its error with nothing more sent; when it succeeds, exactly the outcome of `status()` after it |
| `ClientV2.WriteOfAcknowledgedCommand` | custom_components/twinfresh/api_v2.py:78-82 | end to end: an acknowledged write followed by a well-formed status response sends exactly the two packets and returns the translation of that response's fields |
| `ClientV2.PowerOnCmd` | custom_components/twinfresh/api_v2.py:78-82 | writes on/off = 01 (payload `01 01`); a failed write ends the call with its error, otherwise the result is exactly `status()` after it |
| `ClientV2.PowerOffCmd` | custom_components/twinfresh/api_v2.py:84-88 | writes on/off = 00 (payload `01 00`); a failed write ends the call with its error, otherwise the result is exactly `status()` after it |
| `ClientV2.SpeedCmd` | custom_components/twinfresh/api_v2.py:90-96 | a speed outside FAN_SPEEDS is refused with nothing sent; otherwise writes command 02 with the speed's octets; a failed write ends the call with its error, otherwise the result is exactly `status()` after it |
| `ClientV2.DirectionCmd` | custom_components/twinfresh/api_v2.py:98-109 | refused with nothing sent exactly when the argument is neither a direction name nor a code; otherwise writes B7 with the resolved code, which is a DIRECTIONS code; a failed write ends the call with its error, otherwise the result is exactly `status()` after it |
| `ClientV2.SleepCmd` | custom_components/twinfresh/api_v2.py:111-115 | writes on/off = 01 and mode = 01 in one request; a failed write ends the call with its error, otherwise the result is exactly `status()` after it |
| `ClientV2.PartyCmd` | custom_components/twinfresh/api_v2.py:117-121 | writes on/off = 01 and mode = 02 in one request; a failed write ends the call with its error, otherwise the result is exactly `status()` after it |
| `ClientV2.HumidityCmd` | custom_components/twinfresh/api_v2.py:123-128 | reads command 25; the exchange's error, else the parser's error, else the value of field 25, or None when the reply lacks it |
| `ClientV2.HumidityOfWellFormedReply` | custom_components/twinfresh/api_v2.py:123-128 | end to end: a well-formed response yields its value for command 25, or None when it carries none |
| `ClientV2.StatusOfWellFormedReply` | custom_components/twinfresh/api_v2.py:71-76 | end to end: a device answering with a well-formed response gets back the translation of exactly its fields |
| `ClientV1.Unframe` | custom_components/twinfresh/api_v1.py:98 | what is read out of a datagram is a command whose frame is that datagram |
| `ClientV1.UnframeFrame` | custom_components/twinfresh/api_v1.py:98 | every framed command is read back whole |
| `ClientV1.SendCommand` | custom_components/twinfresh/api_v1.py:93-116 | the framed command is sent; the result is the device's datagram cut to 4096 octets, a timeout, or a socket error |
| `ClientV1.Translate` | custom_components/twinfresh/api_v1.py:118-138 | a reply of at most 23 octets raises IndexError; an unknown direction code raises KeyError; power is on exactly for 01; speed and mode are the texts of octets 19 and 9; oscillating exactly for the alternating code, and then no direction |
| `ClientV1.TranslateStatusFrame` | custom_components/twinfresh/api_v1.py:118-138 | a status frame written with given power, mode, speed and direction octets is read back as those values |
| `ClientV1.TranslateReadsFixedOffsets` | custom_components/twinfresh/api_v1.py:120-124 | the translation reads octets 7, 9, 19 and 23 and nothing else |
| `ClientV1.ReadThenWrite` | custom_components/twinfresh/api_v1.py:44-79 | the status is read; the command is sent exactly when the reply's text at the offset differs; a failed or too short status reply ends the call with its error; otherwise the result is the last exchange's error or the translation of its reply |
| `ClientV1.PowerTexts` | custom_components/twinfresh/api_v1.py:27-28 | the text of an octet is "01" or "00" exactly for the octet 01 or 00 |
| `ClientV1.StatusCmd` | custom_components/twinfresh/api_v1.py:39-42 | one status request; the result is the exchange's error or the translation of its reply |
| `ClientV1.PowerOnCmd` | custom_components/twinfresh/api_v1.py:44-49 | the toggle 03 is sent exactly when octet 7 of the status reply is not 01; the outcome is that of `ReadThenWrite` for this offset and command |
| `ClientV1.PowerOffCmd` | custom_components/twinfresh/api_v1.py:51-56 | the toggle 03 is sent exactly when octet 7 of the status reply is not 00; the outcome is that of `ReadThenWrite` for this offset and command |
| `ClientV1.SpeedCmd` | custom_components/twinfresh/api_v1.py:58-65 | a speed outside FAN_SPEEDS is refused with nothing sent; command 04 is sent exactly when the text at octet 19 differs; the outcome is that of `ReadThenWrite` for this offset and command |
| `ClientV1.DirectionCmd` | custom_components/twinfresh/api_v1.py:67-79 | a name or code is resolved or refused with nothing sent; command 06 is sent exactly when the text at octet 23 differs from the code; the outcome is that of `ReadThenWrite` for this offset and command |
| `ClientV1.AfterPowerOn` | custom_components/twinfresh/api_v1.py:81-91 | power on first, whose failure ends the call; then the command, whose exchange error or translated reply is the result |
| `ClientV1.SleepCmd` | custom_components/twinfresh/api_v1.py:81-85 | power on, then command 09 01, whose exchange error or translated reply is the result |
| `ClientV1.PartyCmd` | custom_components/twinfresh/api_v1.py:87-91 | power on, then command 09 02, whose exchange error or translated reply is the result |

## Left out

- Sockets, the 10-second timeout, `async` scheduling and logging are not modelled. A `Transport.Device` function stands in for the device and the network.
- const.py is not part of this model. DIRECTIONS, FAN_SPEEDS and DIRECTION_ALTERNATING are an abstract `Tables.Constants`. `Tables.Valid` requires that keys are distinct and that codes and speeds are hex texts `bytes.fromhex` accepts.
- The Home Assistant glue (`__init__.py`, `config_flow.py`, `coordinator.py`, `fan.py`, `sensor.py`) is not part of this model.
- `PacketV2.LoginPacket` covers ASCII credentials and passwords of at most 255 characters only. The length octet `f"{len:02x}"` counts characters, so a multi-octet UTF-8 character would make it smaller than the password's octet count. For passwords of 256 to 4095 characters the length text has three digits and the packet text has odd length, so `bytes.fromhex` (api_v2.py:178) raises ValueError before anything is sent. From 4096 to 65535 characters the length text has four digits and every later octet is shifted; from 65536 characters on it has five digits and the text is odd-length again.
- `TranslateV2.Translate` returns the speed as a number. Its two-digit decimal rendering `f"{n:02}"` is not modelled.
- `Hex.Decode` treats text as `bytes.fromhex` does, except that blanks between octets are not accepted.
- `ClientV1.Translate`: the direction code is compared with DIRECTION_ALTERNATING. The V2 client compares the direction name instead. Both are modelled as written, and the table's values are left open, so which comparison is meant is not decided here.
- The V1 client sends `bytes.fromhex(command)`. The model sends the decoded octets directly, so a non-hex speed or code never arises: `Tables.Valid` excludes it.

## Findings

| source | as written | input that shows it | evidently intended | confidence | as-written member | corrected member |
|---|---|---|---|---|---|---|
| custom_components/twinfresh/api_v2.py:137-138 | the checksum text `f"{sum:04X}"` is cut into characters 2-3 and 0-1 with no bound on its width. At sums of 65536 and above it has five or more digits and the trailing ones are dropped: from 65536 to 16^5 - 1 the octets sent spell the sum divided by 16 (`ChecksumUnit.FormatDropsLastDigit`), which in general is not the 16-bit checksum, and sums 65536 and 65537 get the same checksum | `status()` with an id of 516 `~` characters followed by `V` and an empty password: the summed octets add up to exactly 65536, and the checksum sent is `00 10` | the sum truncated to 16 bits, low octet first (`00 00` here) | not executed | `ChecksumUnit.FormatOverflowsAt65536` | `ChecksumUnit.Checksum16` |

Packets are built with the checksum as written, because that is what the program sends. `ChecksumUnit.Checksum16` is the corrected checksum. `ChecksumUnit.SingleOctetChangeDetected` proves the property it is meant to have, which the as-written one loses (`ChecksumUnit.FormatMissesLastDigit`). `ChecksumUnit.ReceivedChecksumFits` shows that the two agree on every reply the client can receive.

=== FILE: base.dfy ===
/** Shared vocabulary of the fan-controller client: octets, the error kinds the
    Python code raises, failure-compatible result wrappers, and the few
    sequence and dictionary operations both protocol versions use. */
module Base {

  /** One octet on the wire (one two-character entry of the source's hexlists). */
  type Byte = b: nat | b < 256

  /** Every way a call into the client can end in an exception. */
  datatype Error =
    | Timeout                        // socket.timeout after the 10 s receive limit
    | SocketFailure                  // any other OSError of sendto/recvfrom
    | ChecksumMismatch               // Exception("Checksum error")
    | IndexOutOfRange                // IndexError from reading past the end of a hexlist
    | InvalidPrefix                  // Exception("Invalid packet prefix")
    | InvalidProtocolType            // Exception("Invalid packet protocol type")
    | InvalidResultFunction          // Exception("Invalid result function")
    | ChangeBaseFunctionUnsupported  // the FC field marker
    | HighByteUnsupported            // the FF field marker
    | InvalidSpeed                   // ValueError("Invalid fan speed")
    | InvalidDirection               // ValueError("Invalid fan direction")
    | UnknownDirectionCode           // KeyError escaping the V1 translation
    | EmptySpeedValue                // ValueError from int("", 16)

  datatype Option<+T> = None | Some(value: T)

  datatype Result<+T> = Ok(value: T) | Err(error: Error) {
    predicate IsFailure() {
      Err?
    }

    function PropagateFailure<U>(): Result<U>
      requires Err?
    {
      Err(error)
    }

    function Extract(): T
      requires Ok?
    {
      value
    }
  }

  function Min(a: int, b: int): int {
    if a <= b then a else b
  }

  /** Unsigned sum of a byte sequence. */
  function Sum(s: seq<Byte>): nat {
    if |s| == 0 then 0 else s[0] + Sum(s[1..])
  }

  lemma {:induction false} SumBound(s: seq<Byte>)
    ensures Sum(s) <= 255 * |s|
  {
    if |s| > 0 {
      SumBound(s[1..]);
    }
  }

  /** The sequence read back to front. */
  function Reverse<T>(s: seq<T>): (r: seq<T>)
    ensures |r| == |s|
    ensures forall k :: 0 <= k < |s| ==> r[k] == s[|s| - 1 - k]
  {
    if |s| == 0 then [] else Reverse(s[1..]) + [s[0]]
  }

  /** The number a byte sequence spells, most significant byte first: what
      `int(text, 16)` yields for the hex text of the bytes. */
  function BigEndian(s: seq<Byte>): nat {
    if |s| == 0 then 0 else BigEndian(s[..|s| - 1]) * 256 + s[|s| - 1]
  }

  /** The dictionary a Python dict display or a run of `update` calls builds from
      its entries: a later entry for a key replaces an earlier one. */
  function DictOf<K, V>(entries: seq<(K, V)>): (m: map<K, V>)
    ensures m.Keys == set j | 0 <= j < |entries| :: entries[j].0
    decreases |entries|
  {
    if |entries| == 0 then map[]
    else DictOf(entries[..|entries| - 1])[entries[|entries| - 1].0 := entries[|entries| - 1].1]
  }
}

=== FILE: checksum.dfy ===
/** The additive checksum of the V2 protocol (`_checksum` and `_verify_checksum`
    in api_v2.py): the octets after the two-octet prefix are summed and the sum
    is sent low octet first, high octet second. */
module ChecksumUnit {
  import opened Base

  /** What `_checksum` accumulates: every octet from index 2 on
      (`hexlist[2:]`, empty for shorter data). */
  function SumFrom2(data: seq<Byte>): nat {
    if |data| <= 2 then 0 else Sum(data[2..])
  }

  /** Base-16 digits of `n`, most significant first, no leading zeros: the
      digits of `format(n, "X")`. */
  function HexDigits(n: nat): (ds: seq<nat>)
    ensures 1 <= |ds|
    ensures forall k :: 0 <= k < |ds| ==> ds[k] < 16
  {
    if n < 16 then [n] else HexDigits(n / 16) + [n % 16]
  }

  /** Zero digits added in front up to width four, as the `04` of `04X` does. */
  function Pad4(ds: seq<nat>): (r: seq<nat>)
    requires forall k :: 0 <= k < |ds| ==> ds[k] < 16
    ensures |r| == if |ds| < 4 then 4 else |ds|
    ensures forall k :: 0 <= k < |r| ==> r[k] < 16
    decreases 4 - |ds|
  {
    if |ds| < 4 then Pad4([0] + ds) else ds
  }

  /** The two checksum octets exactly as `_checksum` renders them: the text
      `f"{sum:04X}"` is cut into characters 2-3 and 0-1 and those two pairs are
      sent in that order. Nothing bounds the width of the text; below 65536 it
      is four digits wide and the octets are the 16-bit sum, low octet first. */
  function FormatChecksum(sum: nat): (r: seq<Byte>)
    ensures |r| == 2
    ensures sum < 65536 ==> r == Checksum16(sum)
  {
    FourDigitText(sum);
    var t := Pad4(HexDigits(sum));
    [t[2] * 16 + t[3], t[0] * 16 + t[1]]
  }

  /** The checksum the protocol intends: the sum truncated to 16 bits, low
      octet first. */
  function Checksum16(sum: nat): (r: seq<Byte>)
    ensures |r| == 2
    ensures r[0] as int + 256 * r[1] as int == sum % 65536
  {
    LowHigh(sum);
    [sum % 256, (sum / 256) % 256]
  }

  lemma LowHigh(sum: nat)
    ensures sum % 256 + 256 * ((sum / 256) % 256) == sum % 65536
  {
    var q, lo := sum / 256, sum % 256;
    var top, mid := q / 256, q % 256;
    assert sum == 256 * q + lo;
    assert q == 256 * top + mid;
    ModOf(sum, top, lo + 256 * mid);
  }

  /** The remainder by 65536 is the part below 65536. */
  lemma ModOf(n: nat, k: nat, low: nat)
    requires low < 65536 && n == 65536 * k + low
    ensures n % 65536 == low
  {
  }

  /** The checksum appended to `data` by `_build_packet`, as written. */
  function Checksum(data: seq<Byte>): (r: seq<Byte>)
    ensures |r| == 2
    ensures SumFrom2(data) < 65536 ==> r[0] as int + 256 * r[1] as int == SumFrom2(data)
  {
    FormatChecksum(SumFrom2(data))
  }

  /** `_verify_checksum`: recompute over all but the last two octets and compare
      with those two. A list shorter than two raises IndexError at `hexlist[-2]`. */
  function VerifyChecksum(b: seq<Byte>): (r: Result<bool>)
    ensures |b| < 2 <==> r == Err(IndexOutOfRange)
    ensures |b| >= 2 ==> r.Ok?
    ensures |b| >= 2 && SumFrom2(b[..|b| - 2]) < 65536 ==>
              (r == Ok(true) <==> SumFrom2(b[..|b| - 2]) == b[|b| - 2] as int + 256 * b[|b| - 1] as int)
  {
    if |b| < 2 then Err(IndexOutOfRange)
    else Ok(Checksum(b[..|b| - 2]) == b[|b| - 2..])
  }

  lemma FourDigits(n: nat, a: nat, b: nat, c: nat, d: nat)
    requires a < 16 && b < 16 && c < 16 && d < 16
    requires n == 4096 * a + 256 * b + 16 * c + d
    ensures Pad4(HexDigits(n)) == [a, b, c, d]
    ensures a > 0 ==> HexDigits(n) == [a, b, c, d]
  {
    var m, q := 256 * a + 16 * b + c, 16 * a + b;
    DivMod16(n, m, d);
    DivMod16(m, q, c);
    DivMod16(q, a, b);
    if a > 0 {
      assert HexDigits(q) == [a, b];
      assert HexDigits(m) == [a, b, c];
      assert HexDigits(n) == [a, b, c, d];
    } else if b > 0 {
      assert HexDigits(q) == [b];
      assert HexDigits(m) == [b, c];
      assert HexDigits(n) == [b, c, d];
    } else if c > 0 {
      assert HexDigits(m) == [c];
      assert HexDigits(n) == [c, d];
      assert [0] + [c, d] == [0, c, d] && [0] + [0, c, d] == [0, 0, c, d];
      assert Pad4([0, c, d]) == [0, 0, c, d];
    } else {
      assert HexDigits(n) == [d];
      assert [0] + [d] == [0, d] && [0] + [0, d] == [0, 0, d] && [0] + [0, 0, d] == [0, 0, 0, d];
      assert Pad4([0, 0, d]) == [0, 0, 0, d];
      assert Pad4([0, d]) == [0, 0, 0, d];
    }
  }

  /** Quotient and remainder by 16 are fixed by `n == 16 * q + r`, `r < 16`. */
  lemma DivMod16(n: nat, q: nat, r: nat)
    requires r < 16 && n == 16 * q + r
    ensures n / 16 == q && n % 16 == r
  {
  }

  /** Quotient and remainder by 256 are fixed by `n == 256 * q + r`, `r < 256`. */
  lemma DivMod256(n: nat, q: nat, r: nat)
    requires r < 256 && n == 256 * q + r
    ensures n / 256 == q && n % 256 == r
  {
  }

  /** Below 65536 the four digits of `04X` spell the low and the high octet. */
  lemma FourDigitText(sum: nat)
    ensures sum < 65536 ==>
      var t := Pad4(HexDigits(sum));
      |t| == 4 && t[2] * 16 + t[3] == sum % 256 && t[0] * 16 + t[1] == (sum / 256) % 256
  {
    if sum >= 65536 {
      return;
    }
    var hi, lo := sum / 256, sum % 256;
    DivMod256(sum, hi, lo);
    var a, b, c, d := hi / 16, hi % 16, lo / 16, lo % 16;
    DivMod16(hi, a, b);
    DivMod16(lo, c, d);
    FourDigits(sum, a, b, c, d);
    DivMod256(hi, 0, hi);
  }

  /** From 65536 to 16^5 - 1 the text has five digits and the two octets spell
      the sum with its last hex digit dropped. */
  lemma FormatDropsLastDigit(sum: nat)
    requires 65536 <= sum < 1048576
    ensures FormatChecksum(sum)[0] as int + 256 * FormatChecksum(sum)[1] as int == sum / 16
  {
    var m, e := sum / 16, sum % 16;
    DivMod16(sum, m, e);
    var hi, lo := m / 256, m % 256;
    DivMod256(m, hi, lo);
    var a, b, c, d := hi / 16, hi % 16, lo / 16, lo % 16;
    DivMod16(hi, a, b);
    DivMod16(lo, c, d);
    FourDigits(m, a, b, c, d);
    assert HexDigits(sum) == [a, b, c, d, e];
  }

  /** At 65536 the text is "10000": the as-written checksum is 00 10 where the
      16-bit truncation is 00 00. */
  lemma FormatOverflowsAt65536()
    ensures FormatChecksum(65536) == [0x00, 0x10]
    ensures Checksum16(65536) == [0x00, 0x00]
  {
    assert HexDigits(1) == [1];
    assert HexDigits(16) == [1, 0];
    assert HexDigits(256) == [1, 0, 0];
    assert HexDigits(4096) == [1, 0, 0, 0];
    assert HexDigits(65536) == [1, 0, 0, 0, 0];
  }

  /** A checksum that drops a digit cannot see that digit: sums 65536 and
      65537 give the same octets. */
  lemma FormatMissesLastDigit()
    ensures FormatChecksum(65536) == FormatChecksum(65537)
  {
    FormatDropsLastDigit(65536);
    FormatDropsLastDigit(65537);
  }

  /** A datagram of at most 256 octets (the `recvfrom(256)` bound) sums to less
      than 65536 over its checked part, so the as-written and the intended
      checksum agree on every response the client can receive. */
  lemma ReceivedChecksumFits(b: seq<Byte>)
    requires |b| <= 256
    ensures |b| >= 2 ==> SumFrom2(b[..|b| - 2]) < 65536
    ensures |b| >= 2 ==> Checksum(b[..|b| - 2]) == Checksum16(SumFrom2(b[..|b| - 2]))
  {
    if |b| >= 2 {
      var data := b[..|b| - 2];
      if |data| > 2 {
        SumBound(data[2..]);
      }
    }
  }

  lemma {:induction false} SumUpdate(s: seq<Byte>, k: nat, x: Byte)
    requires k < |s|
    ensures Sum(s[k := x]) + s[k] == Sum(s) + x
  {
    if k == 0 {
      assert s[k := x][1..] == s[1..];
    } else {
      assert s[k := x][1..] == s[1..][k - 1 := x];
      SumUpdate(s[1..], k - 1, x);
    }
  }

  /** Replacing any one checked octet by a different value always changes the
      intended 16-bit checksum: the sum moves by less than 65536 and not by
      zero. */
  lemma SingleOctetChangeDetected(data: seq<Byte>, k: nat, x: Byte)
    requires 2 <= k < |data|
    requires x != data[k]
    ensures Checksum16(SumFrom2(data[k := x])) != Checksum16(SumFrom2(data))
  {
    var d' := data[k := x];
    assert d'[2..] == data[2..][k - 2 := x];
    SumUpdate(data[2..], k - 2, x);
    SumBound(data[2..]);
    assert SumFrom2(d') + data[k] == SumFrom2(data) + x;
  }
}

=== FILE: client_v1.dfy ===
/** The older text-framed protocol of `SikuV1Api` (api_v1.py). A request is the
    ASCII word "mobile", the command octets and CR LF; the reply (at most 4096
    octets, no checksum) is a status frame read at fixed offsets: power at 7,
    mode at 9, speed at 19, direction at 23. The power, speed and direction
    commands first read the status and send their command only when the
    device differs; sleep and party power on and then always send theirs. */
module ClientV1 {
  import opened Base
  import Hex
  import opened Tables
  import opened Transport

  const FramePrefix: seq<Byte> := [0x6D, 0x6F, 0x62, 0x69, 0x6C, 0x65]  // "mobile"
  const FramePostfix: seq<Byte> := [0x0D, 0x0A]

  const CmdStatus: seq<Byte> := [0x01]
  const CmdDirection: Byte := 0x06
  const CmdSpeed: Byte := 0x04
  const CmdPower: seq<Byte> := [0x03]
  const CmdSleep: seq<Byte> := [0x09, 0x01]
  const CmdParty: seq<Byte> := [0x09, 0x02]

  const PowerAt: nat := 7
  const ModeAt: nat := 9
  const SpeedAt: nat := 19
  const DirectionAt: nat := 23

  const ResultPowerOn: Byte := 0x01
  const ResultPowerOff: Byte := 0x00

  /** The dict `_translate_response` returns; speed and mode are the lower-case
      hex texts of their octets. */
  datatype Status = Status(
    isOn: bool,
    speed: string,
    oscillating: bool,
    direction: Option<string>,
    mode: string)

  /** `PACKET_PREFIX + packet_command + PACKET_POSTFIX`. */
  function Frame(command: seq<Byte>): seq<Byte> {
    FramePrefix + command + FramePostfix
  }

  /** The device's reading of a request: the command between the word and the
      line end, None for anything not so framed. */
  function Unframe(datagram: seq<Byte>): (r: Option<seq<Byte>>)
    ensures r.Some? ==> Frame(r.value) == datagram
  {
    if |datagram| >= 8 && datagram[..6] == FramePrefix && datagram[|datagram| - 2..] == FramePostfix
    then
      var command := datagram[6..|datagram| - 2];
      assert datagram == datagram[..6] + command + datagram[|datagram| - 2..];
      Some(command)
    else None
  }

  /** Every framed command is read back whole. */
  lemma UnframeFrame(command: seq<Byte>)
    ensures Unframe(Frame(command)) == Some(command)
  {
    var d := Frame(command);
    assert d[..6] == FramePrefix;
    assert d[|d| - 2..] == FramePostfix;
    assert d[6..|d| - 2] == command;
  }

  /** `_send_command(command)`: one exchange of the framed command, reply cut at
      4096 octets. */
  function SendCommand(dev: Device, sent: Trace, command: seq<Byte>): (r: Run<seq<Byte>>)
    ensures r.sent == sent + [Frame(command)]
    ensures var d := dev(sent + [Frame(command)]);
      && (d.Datagram? ==> r.result == Ok(d.octets[..Min(4096, |d.octets|)]))
      && (d.NoReply? ==> r.result == Err(Timeout))
      && (d.Fault? ==> r.result == Err(SocketFailure))
  {
    Exchange(dev, sent, Frame(command), 4096)
  }

  /** The text of one received octet as the hexlist holds it. */
  function Text(b: Byte): string {
    Hex.Encode([b], false)
  }

  /** `_translate_response(hexlist)`. A reply shorter than 24 octets raises
      IndexError, which the `except KeyError` does not catch; a direction code
      that is neither DIRECTION_ALTERNATING nor a key of DIRECTIONS raises an
      uncaught KeyError. */
  function Translate(k: Constants, h: seq<Byte>): (r: Result<Status>)
    ensures |h| <= DirectionAt ==> r == Err(IndexOutOfRange)
    ensures r.Ok? ==> |h| > DirectionAt
    ensures r.Ok? ==> (r.value.isOn <==> h[PowerAt] == ResultPowerOn)
    ensures r.Ok? ==> r.value.speed == Text(h[SpeedAt]) && r.value.mode == Text(h[ModeAt])
    ensures r.Ok? ==> (r.value.oscillating <==> Text(h[DirectionAt]) == k.alternating)
    ensures r.Ok? ==> (r.value.direction.None? <==> r.value.oscillating)
    ensures r.Ok? && r.value.direction.Some? ==>
      Text(h[DirectionAt]) in Directions(k) && r.value.direction.value == Directions(k)[Text(h[DirectionAt])]
    ensures |h| > DirectionAt ==>
      (r.Err? <==> Text(h[DirectionAt]) != k.alternating && Text(h[DirectionAt]) !in Directions(k))
    ensures |h| > DirectionAt && r.Err? ==> r.error == UnknownDirectionCode
  {
    if |h| <= DirectionAt then Err(IndexOutOfRange)
    else
      var direction := Text(h[DirectionAt]);
      if direction != k.alternating && direction !in Directions(k) then Err(UnknownDirectionCode)
      else Ok(Status(
        isOn := h[PowerAt] == ResultPowerOn,
        speed := Text(h[SpeedAt]),
        oscillating := direction == k.alternating,
        direction := if direction != k.alternating then Some(Directions(k)[direction]) else None,
        mode := Text(h[ModeAt])))
  }

  /** The translation reads four octets and nothing else. */
  lemma TranslateReadsFixedOffsets(k: Constants, h: seq<Byte>, h': seq<Byte>)
    requires |h| > DirectionAt && |h'| > DirectionAt
    requires h[PowerAt] == h'[PowerAt] && h[ModeAt] == h'[ModeAt]
    requires h[SpeedAt] == h'[SpeedAt] && h[DirectionAt] == h'[DirectionAt]
    ensures Translate(k, h) == Translate(k, h')
  {
  }

  /** A status frame as the device writes it: `filler` with the power, mode,
      speed and direction octets put at their offsets. */
  function StatusFrame(filler: seq<Byte>, power: Byte, mode: Byte, speed: Byte, direction: Byte): (h: seq<Byte>)
    requires |filler| > DirectionAt
    ensures |h| == |filler|
  {
    filler[PowerAt := power][ModeAt := mode][SpeedAt := speed][DirectionAt := direction]
  }

  /** Every status frame whose direction code is known is read back as
      written: power on exactly for 01, the speed and mode texts of their
      octets, and the direction named by the table unless it is the
      alternating code. */
  lemma TranslateStatusFrame(k: Constants, filler: seq<Byte>, power: Byte, mode: Byte, speed: Byte, direction: Byte)
    requires |filler| > DirectionAt
    requires Text(direction) == k.alternating || Text(direction) in Directions(k)
    ensures Translate(k, StatusFrame(filler, power, mode, speed, direction)) ==
      Ok(Status(
        isOn := power == 0x01,
        speed := Text(speed),
        oscillating := Text(direction) == k.alternating,
        direction := if Text(direction) == k.alternating then None else Some(Directions(k)[Text(direction)]),
        mode := Text(mode)))
  {
    var h := StatusFrame(filler, power, mode, speed, direction);
    assert h[PowerAt] == power && h[ModeAt] == mode && h[SpeedAt] == speed && h[DirectionAt] == direction;
  }

  /** The device's reply to a status request sent after `sent`. */
  function StatusReply(dev: Device, sent: Trace): Result<seq<Byte>> {
    SendCommand(dev, sent, CmdStatus).result
  }

  /** Whether the read-then-write commands send their command: the status
      reply arrived, holds offset `at`, and the text there is not `target`. */
  predicate Differs(dev: Device, sent: Trace, at: nat, target: string) {
    var s := StatusReply(dev, sent);
    s.Ok? && |s.value| > at && Text(s.value[at]) != target
  }

  /** The contract every read-then-write command keeps: the status request is
      sent; `command` follows exactly when the status reply differs at `at`;
      a failed or too short status reply ends the call; otherwise the last
      reply received is translated. */
  predicate ReadThenWriteOutcome(k: Constants, dev: Device, sent: Trace, at: nat, target: string,
                                 command: seq<Byte>, r: Run<Status>) {
    var s := StatusReply(dev, sent);
    && (Differs(dev, sent, at, target) ==> r.sent == sent + [Frame(CmdStatus), Frame(command)])
    && (!Differs(dev, sent, at, target) ==> r.sent == sent + [Frame(CmdStatus)])
    && (s.Err? ==> r.result == Err(s.error))
    && (s.Ok? && |s.value| <= at ==> r.result == Err(IndexOutOfRange))
    && (s.Ok? && |s.value| > at && !Differs(dev, sent, at, target) ==> r.result == Translate(k, s.value))
    && (Differs(dev, sent, at, target) ==>
          var w := SendCommand(dev, sent + [Frame(CmdStatus)], command).result;
          && (w.Err? ==> r.result == Err(w.error))
          && (w.Ok? ==> r.result == Translate(k, w.value)))
  }

  /** Read the status; send `command` exactly when the text at offset `at`
      differs from `target`; translate the last reply. A status reply too
      short for `at` raises IndexError. */
  function ReadThenWrite(k: Constants, dev: Device, sent: Trace, at: nat, target: string,
                         command: seq<Byte>): (r: Run<Status>)
    ensures ReadThenWriteOutcome(k, dev, sent, at, target, command, r)
  {
    var s := SendCommand(dev, sent, CmdStatus);
    if s.result.Err? then Run(s.sent, Err(s.result.error))
    else if |s.result.value| <= at then Run(s.sent, Err(IndexOutOfRange))
    else if Text(s.result.value[at]) == target then Run(s.sent, Translate(k, s.result.value))
    else
      var w := SendCommand(dev, s.sent, command);
      if w.result.Err? then Run(w.sent, Err(w.result.error))
      else Run(w.sent, Translate(k, w.result.value))
  }

  /** The text of an octet equals "01" / "00" exactly for the octet 01 / 00. */
  lemma PowerTexts()
    ensures forall b: Byte :: (Text(b) == "01" <==> b == ResultPowerOn)
    ensures forall b: Byte :: (Text(b) == "00" <==> b == ResultPowerOff)
  {
    assert Text(0x01) == "01";
    assert Text(0x00) == "00";
    forall b: Byte
      ensures Text(b) == "01" <==> b == ResultPowerOn
      ensures Text(b) == "00" <==> b == ResultPowerOff
    {
      Hex.EncodeInjective([b], [0x01], false);
      Hex.EncodeInjective([b], [0x00], false);
    }
  }

  /** `status()`. */
  function StatusCmd(k: Constants, dev: Device, sent: Trace): (r: Run<Status>)
    ensures r.sent == sent + [Frame(CmdStatus)]
    ensures var s := StatusReply(dev, sent);
      && (s.Err? ==> r.result == Err(s.error))
      && (s.Ok? ==> r.result == Translate(k, s.value))
  {
    var s := SendCommand(dev, sent, CmdStatus);
    if s.result.Err? then Run(s.sent, Err(s.result.error))
    else Run(s.sent, Translate(k, s.result.value))
  }

  /** `power_on()`: the toggle (command 03) is sent only when octet 7 of the
      status reply is not 01. */
  function PowerOnCmd(k: Constants, dev: Device, sent: Trace): (r: Run<Status>)
    ensures ReadThenWriteOutcome(k, dev, sent, PowerAt, "01", CmdPower, r)
    ensures var s := StatusReply(dev, sent);
      && (s.Ok? && |s.value| > PowerAt && s.value[PowerAt] != 0x01 ==>
            r.sent == sent + [Frame([0x01]), Frame([0x03])])
      && (!(s.Ok? && |s.value| > PowerAt && s.value[PowerAt] != 0x01) ==>
            r.sent == sent + [Frame([0x01])])
  {
    PowerTexts();
    ReadThenWrite(k, dev, sent, PowerAt, "01", CmdPower)
  }

  /** `power_off()`: the toggle (command 03) is sent only when octet 7 of the
      status reply is not 00. */
  function PowerOffCmd(k: Constants, dev: Device, sent: Trace): (r: Run<Status>)
    ensures ReadThenWriteOutcome(k, dev, sent, PowerAt, "00", CmdPower, r)
    ensures var s := StatusReply(dev, sent);
      && (s.Ok? && |s.value| > PowerAt && s.value[PowerAt] != 0x00 ==>
            r.sent == sent + [Frame([0x01]), Frame([0x03])])
      && (!(s.Ok? && |s.value| > PowerAt && s.value[PowerAt] != 0x00) ==>
            r.sent == sent + [Frame([0x01])])
  {
    PowerTexts();
    ReadThenWrite(k, dev, sent, PowerAt, "00", CmdPower)
  }

  /** `speed(speed)`: refused before anything is sent when not in FAN_SPEEDS;
      otherwise command 04 with the speed's octets, sent only when the text of
      octet 19 differs from `speed`. */
  function SpeedCmd(k: Constants, dev: Device, sent: Trace, speed: string): (r: Run<Status>)
    requires Valid(k)
    ensures speed !in k.fanSpeeds <==> r == Run(sent, Err(InvalidSpeed))
    ensures speed in k.fanSpeeds ==>
      Hex.IsHex(speed) && ReadThenWriteOutcome(k, dev, sent, SpeedAt, speed, [0x04] + Hex.Decode(speed).value, r)
    ensures speed in k.fanSpeeds && Differs(dev, sent, SpeedAt, speed) ==>
      r.sent == sent + [Frame([0x01]), Frame([0x04] + Hex.Decode(speed).value)]
    ensures speed in k.fanSpeeds && !Differs(dev, sent, SpeedAt, speed) ==>
      r.sent == sent + [Frame([0x01])]
  {
    if speed !in k.fanSpeeds then Run(sent, Err(InvalidSpeed))
    else ReadThenWrite(k, dev, sent, SpeedAt, speed, [CmdSpeed] + Hex.Decode(speed).value)
  }

  /** `direction(direction)`: resolved as in the V2 client, refused before
      anything is sent when neither a name nor a code; command 06 with the
      code's octets, sent only when the text of octet 23 differs from the code. */
  function DirectionCmd(k: Constants, dev: Device, sent: Trace, direction: string): (r: Run<Status>)
    requires Valid(k)
    ensures ResolveDirection(k, direction).None? <==> r == Run(sent, Err(InvalidDirection))
    ensures ResolveDirection(k, direction).Some? ==>
      var code := ResolveDirection(k, direction).value;
      && ReadThenWriteOutcome(k, dev, sent, DirectionAt, code, [0x06] + Hex.Decode(code).value, r)
      && (Differs(dev, sent, DirectionAt, code) ==>
            r.sent == sent + [Frame([0x01]), Frame([0x06] + Hex.Decode(code).value)])
      && (!Differs(dev, sent, DirectionAt, code) ==> r.sent == sent + [Frame([0x01])])
  {
    match ResolveDirection(k, direction)
    case None => Run(sent, Err(InvalidDirection))
    case Some(code) =>
      ReadThenWrite(k, dev, sent, DirectionAt, code, [CmdDirection] + Hex.Decode(code).value)
  }

  /** `sleep()` and `party()`: `power_on()` first, whose failure ends the call;
      then `command`, whose reply is translated. */
  function AfterPowerOn(k: Constants, dev: Device, sent: Trace, command: seq<Byte>): (r: Run<Status>)
    ensures
      var p := PowerOnCmd(k, dev, sent);
      && (p.result.Err? ==> r == Run(p.sent, Err(p.result.error)))
      && (p.result.Ok? ==> r.sent == p.sent + [Frame(command)])
      && (p.result.Ok? ==>
            var s := SendCommand(dev, p.sent, command).result;
            && (s.Err? ==> r.result == Err(s.error))
            && (s.Ok? ==> r.result == Translate(k, s.value)))
  {
    var p := PowerOnCmd(k, dev, sent);
    if p.result.Err? then Run(p.sent, Err(p.result.error))
    else
      var s := SendCommand(dev, p.sent, command);
      if s.result.Err? then Run(s.sent, Err(s.result.error))
      else Run(s.sent, Translate(k, s.result.value))
  }

  /** `sleep()`: power on, then command 09 01. */
  function SleepCmd(k: Constants, dev: Device, sent: Trace): (r: Run<Status>)
    ensures var p := PowerOnCmd(k, dev, sent);
      && (p.result.Err? ==> r == Run(p.sent, Err(p.result.error)))
      && (p.result.Ok? ==> r.sent == p.sent + [Frame([0x09, 0x01])])
      && (p.result.Ok? ==>
            var s := SendCommand(dev, p.sent, [0x09, 0x01]).result;
            && (s.Err? ==> r.result == Err(s.error))
            && (s.Ok? ==> r.result == Translate(k, s.value)))
  {
    AfterPowerOn(k, dev, sent, CmdSleep)
  }

  /** `party()`: power on, then command 09 02. */
  function PartyCmd(k: Constants, dev: Device, sent: Trace): (r: Run<Status>)
    ensures var p := PowerOnCmd(k, dev, sent);
      && (p.result.Err? ==> r == Run(p.sent, Err(p.result.error)))
      && (p.result.Ok? ==> r.sent == p.sent + [Frame([0x09, 0x02])])
      && (p.result.Ok? ==>
            var s := SendCommand(dev, p.sent, [0x09, 0x02]).result;
            && (s.Err? ==> r.result == Err(s.error))
            && (s.Ok? ==> r.result == Translate(k, s.value)))
  {
    AfterPowerOn(k, dev, sent, CmdParty)
  }
}

=== FILE: client_v2.dfy ===
/** The command methods of `SikuV2Api` (api_v2.py) over an abstract device.
    Each exchange sends one packet built from the client's credentials; every
    mutating command sends one read-write (0x03) request and, when that
    exchange succeeds, reads the status afresh and returns it. */
module ClientV2 {
  import opened Base
  import Hex
  import opened ChecksumUnit
  import opened PacketV2
  import opened ResponseV2
  import opened TranslateV2
  import opened Tables
  import opened Transport

  /** The commands `status()` reads: device type, on/off, speed, humidity,
      direction and mode. */
  const StatusPayload: seq<Byte> :=
    [CmdDeviceType, CmdOnOff, CmdSpeed, CmdCurrentHumidity, CmdDirection, CmdMode]

  /** `_send_command(func, data)`: one exchange of a built packet, a reply of
      at most 256 octets, and the checksum check. The reply is returned when
      its last two octets spell the sum of the octets after the prefix. */
  function SendCommand(c: Credentials, dev: Device, sent: Trace, func: Byte, payload: seq<Byte>)
    : (r: Run<seq<Byte>>)
    requires ValidCredentials(c)
    ensures r.sent == sent + [BuildPacket(c, func, payload)]
    ensures r.result.Ok? ==> 2 <= |r.result.value| <= 256 && VerifyChecksum(r.result.value) == Ok(true)
    ensures var d := dev(sent + [BuildPacket(c, func, payload)]);
      && (d.NoReply? ==> r.result == Err(Timeout))
      && (d.Fault? ==> r.result == Err(SocketFailure))
      && (d.Datagram? && |d.octets| < 2 ==> r.result == Err(IndexOutOfRange))
      && (d.Datagram? && |d.octets| >= 2 ==> ChecksumOutcome(d.octets[..Min(256, |d.octets|)], r.result))
  {
    var x := Exchange(dev, sent, BuildPacket(c, func, payload), 256);
    if x.result.Err? then Run(x.sent, Err(x.result.error))
    else
      ReceivedChecksumFits(x.result.value);
      Run(x.sent, Checked(x.result.value))
  }

  /** The received octets, or ChecksumMismatch when their checksum is wrong. */
  function Checked(b: seq<Byte>): Result<seq<Byte>> {
    match VerifyChecksum(b)
    case Err(e) => Err(e)
    case Ok(valid) => if valid then Ok(b) else Err(ChecksumMismatch)
  }

  /** What the checksum check does with a reply of two or more octets: it is
      passed on exactly when its last two octets, low first, spell the sum of
      its octets after the prefix, and refused with ChecksumMismatch otherwise. */
  predicate ChecksumOutcome(b: seq<Byte>, r: Result<seq<Byte>>)
    requires |b| >= 2
  {
    var sum := SumFrom2(b[..|b| - 2]);
    && (sum == b[|b| - 2] as int + 256 * b[|b| - 1] as int ==> r == Ok(b))
    && (sum != b[|b| - 2] as int + 256 * b[|b| - 1] as int ==> r == Err(ChecksumMismatch))
  }

  /** `status()`: read the status commands, parse, translate. */
  function Status(c: Credentials, k: Constants, dev: Device, sent: Trace): (r: Run<TranslateV2.Status>)
    requires ValidCredentials(c)
    ensures r.sent == sent + [BuildPacket(c, FuncRead, StatusPayload)]
    ensures var reply := SendCommand(c, dev, sent, FuncRead, StatusPayload).result;
      && (reply.Err? ==> r.result == Err(reply.error))
      && (reply.Ok? && ParseResponse(reply.value).Err? ==> r.result == Err(ParseResponse(reply.value).error))
      && (reply.Ok? && ParseResponse(reply.value).Ok? ==> r.result == Translate(k, ParseResponse(reply.value).value))
  {
    var x := SendCommand(c, dev, sent, FuncRead, StatusPayload);
    if x.result.Err? then Run(x.sent, Err(x.result.error))
    else
      match ParseResponse(x.result.value)
      case Err(e) => Run(x.sent, Err(e))
      case Ok(data) => Run(x.sent, Translate(k, data))
  }

  /** The contract every mutating command keeps: its first datagram is the
      read-write request carrying `payload`; a failure of that exchange ends the
      call with its error and nothing more sent; otherwise the status request
      follows and its outcome is the call's outcome. */
  predicate WriteThenStatus(c: Credentials, k: Constants, dev: Device, sent: Trace,
                            payload: seq<Byte>, r: Run<TranslateV2.Status>)
    requires ValidCredentials(c)
  {
    var written := sent + [BuildPacket(c, FuncReadWrite, payload)];
    var w := SendCommand(c, dev, sent, FuncReadWrite, payload).result;
    && (w.Err? ==> r == Run(written, Err(w.error)))
    && (w.Ok? ==> r == Status(c, k, dev, written))
  }

  /** Send one read-write request, then `status()`. */
  function WriteAndRead(c: Credentials, k: Constants, dev: Device, sent: Trace, payload: seq<Byte>)
    : (r: Run<TranslateV2.Status>)
    requires ValidCredentials(c)
    ensures WriteThenStatus(c, k, dev, sent, payload, r)
  {
    var w := SendCommand(c, dev, sent, FuncReadWrite, payload);
    if w.result.Err? then Run(w.sent, Err(w.result.error))
    else Status(c, k, dev, w.sent)
  }

  /** `power_on()`: write on/off = 01. */
  function PowerOnCmd(c: Credentials, k: Constants, dev: Device, sent: Trace): (r: Run<TranslateV2.Status>)
    requires ValidCredentials(c)
    ensures WriteThenStatus(c, k, dev, sent, [0x01, 0x01], r)
  {
    WriteAndRead(c, k, dev, sent, [CmdOnOff, PowerOn])
  }

  /** `power_off()`: write on/off = 00. */
  function PowerOffCmd(c: Credentials, k: Constants, dev: Device, sent: Trace): (r: Run<TranslateV2.Status>)
    requires ValidCredentials(c)
    ensures WriteThenStatus(c, k, dev, sent, [0x01, 0x00], r)
  {
    WriteAndRead(c, k, dev, sent, [CmdOnOff, PowerOff])
  }

  /** `speed(speed)`: a speed outside FAN_SPEEDS is refused before anything is
      sent; otherwise write command 02 with the speed's octets. */
  function SpeedCmd(c: Credentials, k: Constants, dev: Device, sent: Trace, speed: string)
    : (r: Run<TranslateV2.Status>)
    requires ValidCredentials(c) && Valid(k)
    ensures speed !in k.fanSpeeds <==> r == Run(sent, Err(InvalidSpeed))
    ensures speed in k.fanSpeeds ==>
      Hex.IsHex(speed) && WriteThenStatus(c, k, dev, sent, [0x02] + Hex.Decode(speed).value, r)
  {
    if speed !in k.fanSpeeds then Run(sent, Err(InvalidSpeed))
    else WriteAndRead(c, k, dev, sent, [CmdSpeed] + Hex.Decode(speed).value)
  }

  /** `direction(direction)`: a direction name or code is resolved to a code of
      DIRECTIONS, anything else refused before anything is sent; then write
      command B7 with the code's octets. */
  function DirectionCmd(c: Credentials, k: Constants, dev: Device, sent: Trace, direction: string)
    : (r: Run<TranslateV2.Status>)
    requires ValidCredentials(c) && Valid(k)
    ensures ResolveDirection(k, direction).None? <==> r == Run(sent, Err(InvalidDirection))
    ensures ResolveDirection(k, direction).Some? ==>
      var code := ResolveDirection(k, direction).value;
      && code in Directions(k)
      && WriteThenStatus(c, k, dev, sent, [0xB7] + Hex.Decode(code).value, r)
  {
    match ResolveDirection(k, direction)
    case None => Run(sent, Err(InvalidDirection))
    case Some(code) => WriteAndRead(c, k, dev, sent, [CmdDirection] + Hex.Decode(code).value)
  }

  /** `sleep()`: write on/off = 01 and mode = 01 in one request. */
  function SleepCmd(c: Credentials, k: Constants, dev: Device, sent: Trace): (r: Run<TranslateV2.Status>)
    requires ValidCredentials(c)
    ensures WriteThenStatus(c, k, dev, sent, [0x01, 0x01, 0x07, 0x01], r)
  {
    WriteAndRead(c, k, dev, sent, [CmdOnOff, PowerOn, CmdMode, ModeSleep])
  }

  /** `party()`: write on/off = 01 and mode = 02 in one request. */
  function PartyCmd(c: Credentials, k: Constants, dev: Device, sent: Trace): (r: Run<TranslateV2.Status>)
    requires ValidCredentials(c)
    ensures WriteThenStatus(c, k, dev, sent, [0x01, 0x01, 0x07, 0x02], r)
  {
    WriteAndRead(c, k, dev, sent, [CmdOnOff, PowerOn, CmdMode, ModeParty])
  }

  /** `humidity()`: read command 25 and return its value, None when the
      response has no such field. */
  function HumidityCmd(c: Credentials, dev: Device, sent: Trace): (r: Run<Option<seq<Byte>>>)
    requires ValidCredentials(c)
    ensures r.sent == sent + [BuildPacket(c, FuncRead, [0x25])]
    ensures var reply := SendCommand(c, dev, sent, FuncRead, [0x25]).result;
      && (reply.Err? ==> r.result == Err(reply.error))
      && (reply.Ok? && ParseResponse(reply.value).Err? ==> r.result == Err(ParseResponse(reply.value).error))
      && (reply.Ok? && ParseResponse(reply.value).Ok? ==>
            var data := ParseResponse(reply.value).value;
            r.result == Ok(if 0x25 in data then Some(data[0x25]) else None))
  {
    var x := SendCommand(c, dev, sent, FuncRead, [CmdCurrentHumidity]);
    if x.result.Err? then Run(x.sent, Err(x.result.error))
    else
      match ParseResponse(x.result.value)
      case Err(e) => Run(x.sent, Err(e))
      case Ok(data) => Run(x.sent, Ok(if CmdCurrentHumidity in data then Some(data[CmdCurrentHumidity]) else None))
  }

  /** End to end: when the device answers the status request with a response
      built from well-formed fields that fits the 256-octet receive buffer,
      `status()` returns the translation of exactly those fields. */
  lemma StatusOfWellFormedReply(c: Credentials, k: Constants, dev: Device, sent: Trace, fs: seq<Field>)
    requires ValidCredentials(c) && |c.id| == 16
    requires AllWellFormed(fs)
    requires |BuildResponse(c, fs)| <= 256
    requires dev(sent + [BuildPacket(c, FuncRead, StatusPayload)]) == Datagram(BuildResponse(c, fs))
    ensures Status(c, k, dev, sent).result == Translate(k, Apply(map[], fs))
  {
    var p := BuildResponse(c, fs);
    assert p[..Min(256, |p|)] == p;
    BuiltPacketVerifies(c, FuncResult, EncodeFields(fs));
    ParseBuiltResponse(c, fs);
  }

  /** End to end for the mutating commands: when the device acknowledges the
      read-write request with a reply that passes the checksum check and then
      answers the status request with a well-formed response, the command sends
      exactly those two packets and returns the translation of the response's
      fields. */
  lemma WriteOfAcknowledgedCommand(c: Credentials, k: Constants, dev: Device, sent: Trace,
                                   payload: seq<Byte>, ack: seq<Byte>, fs: seq<Field>)
    requires ValidCredentials(c) && |c.id| == 16
    requires AllWellFormed(fs)
    requires |BuildResponse(c, fs)| <= 256
    requires 2 <= |ack| <= 256 && VerifyChecksum(ack) == Ok(true)
    requires dev(sent + [BuildPacket(c, FuncReadWrite, payload)]) == Datagram(ack)
    requires dev(sent + [BuildPacket(c, FuncReadWrite, payload), BuildPacket(c, FuncRead, StatusPayload)])
               == Datagram(BuildResponse(c, fs))
    ensures WriteAndRead(c, k, dev, sent, payload) ==
      Run(sent + [BuildPacket(c, FuncReadWrite, payload), BuildPacket(c, FuncRead, StatusPayload)],
          Translate(k, Apply(map[], fs)))
  {
    var written := sent + [BuildPacket(c, FuncReadWrite, payload)];
    assert ack[..Min(256, |ack|)] == ack;
    assert written + [BuildPacket(c, FuncRead, StatusPayload)] ==
      sent + [BuildPacket(c, FuncReadWrite, payload), BuildPacket(c, FuncRead, StatusPayload)];
    StatusOfWellFormedReply(c, k, dev, written, fs);
  }

  /** End to end for `humidity()`: a well-formed response yields the value of
      its last field for command 25, or None when it has none. */
  lemma HumidityOfWellFormedReply(c: Credentials, dev: Device, sent: Trace, fs: seq<Field>)
    requires ValidCredentials(c) && |c.id| == 16
    requires AllWellFormed(fs)
    requires |BuildResponse(c, fs)| <= 256
    requires dev(sent + [BuildPacket(c, FuncRead, [0x25])]) == Datagram(BuildResponse(c, fs))
    ensures HumidityCmd(c, dev, sent).result ==
      Ok(if 0x25 in Apply(map[], fs) then Some(Apply(map[], fs)[0x25]) else None)
  {
    var p := BuildResponse(c, fs);
    assert p[..Min(256, |p|)] == p;
    BuiltPacketVerifies(c, FuncResult, EncodeFields(fs));
    ParseBuiltResponse(c, fs);
  }
}

=== FILE: hex.dfy ===
/** Hexadecimal text as the Python client uses it: `bytes.hex()` renders each
    octet as two lower-case digits, `.upper()` makes them upper-case, and
    `bytes.fromhex` / `int(_, 16)` read digits of either case. The protocol
    tables of the integration hold codes as such texts, so comparing a received
    octet with a table entry means comparing texts. */
module Hex {
  import opened Base

  /** The character of hex digit `d`, upper- or lower-case. */
  function DigitChar(d: nat, upper: bool): (c: char)
    requires d < 16
    ensures '0' <= c <= '9' || 'A' <= c <= 'F' || 'a' <= c <= 'f'
  {
    if d < 10 then ('0' as int + d) as char
    else if upper then ('A' as int + d - 10) as char
    else ('a' as int + d - 10) as char
  }

  /** The value of a hex digit character of either case; None for anything else. */
  function DigitValue(c: char): (r: Option<nat>)
    ensures r.Some? ==> r.value < 16
  {
    if '0' <= c <= '9' then Some(c as int - '0' as int)
    else if 'A' <= c <= 'F' then Some(c as int - 'A' as int + 10)
    else if 'a' <= c <= 'f' then Some(c as int - 'a' as int + 10)
    else None
  }

  lemma DigitRoundTrip(d: nat, upper: bool)
    requires d < 16
    ensures DigitValue(DigitChar(d, upper)) == Some(d)
  {
  }

  /** `bytes.hex()` when `upper` is false, `bytes.hex().upper()` when it is true. */
  function Encode(bs: seq<Byte>, upper: bool): (s: string)
    ensures |s| == 2 * |bs|
  {
    if |bs| == 0 then ""
    else [DigitChar(bs[0] / 16, upper), DigitChar(bs[0] % 16, upper)] + Encode(bs[1..], upper)
  }

  /** `bytes.fromhex` on text without blanks: None where Python raises ValueError. */
  function Decode(s: string): (r: Option<seq<Byte>>)
    ensures r.Some? ==> |s| == 2 * |r.value|
  {
    if |s| == 0 then Some([])
    else if |s| == 1 then None
    else
      match (DigitValue(s[0]), DigitValue(s[1]), Decode(s[2..]))
      case (Some(hi), Some(lo), Some(rest)) => Some([hi * 16 + lo] + rest)
      case _ => None
  }

  /** Reading back the text of any octets, in either case, yields those octets. */
  lemma {:induction false} DecodeEncode(bs: seq<Byte>, upper: bool)
    ensures Decode(Encode(bs, upper)) == Some(bs)
  {
    if |bs| > 0 {
      var s := Encode(bs, upper);
      DigitRoundTrip(bs[0] / 16, upper);
      DigitRoundTrip(bs[0] % 16, upper);
      assert s[2..] == Encode(bs[1..], upper);
      DecodeEncode(bs[1..], upper);
      assert [bs[0] / 16 * 16 + bs[0] % 16] + bs[1..] == bs;
    }
  }

  /** Distinct octet sequences have distinct texts, so comparing texts of one
      case is comparing octets. */
  lemma EncodeInjective(a: seq<Byte>, b: seq<Byte>, upper: bool)
    ensures Encode(a, upper) == Encode(b, upper) <==> a == b
  {
    if Encode(a, upper) == Encode(b, upper) {
      DecodeEncode(a, upper);
      DecodeEncode(b, upper);
    }
  }

  /** The text spells whole octets that `bytes.fromhex` accepts. */
  predicate IsHex(s: string) {
    Decode(s).Some?
  }
}

=== FILE: packet_v2.dfy ===
/** Request packets of the V2 protocol (`SikuV2Api._login_packet` and
    `_build_packet` in api_v2.py):

      FD FD | 02 | 10 | id octets | password length | password octets | function | payload | checksum

    The octet after the protocol type is the constant PACKET_SIZE_ID = 0x10:
    nothing is computed from the actual id, so only a 16-character id gives a
    packet whose declared id length is true. */
module PacketV2 {
  import opened Base
  import opened ChecksumUnit

  const Prefix: seq<Byte> := [0xFD, 0xFD]
  const ProtocolType: Byte := 0x02
  const SizeId: Byte := 0x10

  const FuncRead: Byte := 0x01
  const FuncWrite: Byte := 0x02
  const FuncReadWrite: Byte := 0x03
  const FuncInc: Byte := 0x04
  const FuncDec: Byte := 0x05
  const FuncResult: Byte := 0x06

  /** The device id and password a `SikuV2Api` is constructed with. */
  datatype Credentials = Credentials(id: string, password: string)

  predicate Ascii(s: string) {
    forall i :: 0 <= i < |s| ==> s[i] as int < 128
  }

  /** Credentials whose UTF-8 encoding has one octet per character and whose
      password length fits the two hex digits of `f"{len:02x}"`. */
  predicate ValidCredentials(c: Credentials) {
    Ascii(c.id) && Ascii(c.password) && |c.password| <= 255
  }

  /** `s.encode("utf-8")` of ASCII text. */
  function AsciiBytes(s: string): (r: seq<Byte>)
    requires Ascii(s)
    ensures |r| == |s|
    ensures forall i :: 0 <= i < |s| ==> r[i] == s[i] as int
  {
    seq(|s|, i requires 0 <= i < |s| => s[i] as int)
  }

  /** `_login_packet`: prefix, protocol type, the fixed id size, the id, the
      password's character count and the password. */
  function LoginPacket(c: Credentials): seq<Byte>
    requires ValidCredentials(c)
  {
    Prefix + [ProtocolType, SizeId] + AsciiBytes(c.id) + [|c.password|] + AsciiBytes(c.password)
  }

  /** `_build_packet(func, data)`: the login part, the function, the payload and
      the checksum of everything before it. */
  function BuildPacket(c: Credentials, func: Byte, payload: seq<Byte>): (p: seq<Byte>)
    requires ValidCredentials(c)
    ensures |p| == 4 + |c.id| + 1 + |c.password| + 1 + |payload| + 2
    ensures p[..2] == Prefix && p[2] == ProtocolType && p[3] == SizeId
    ensures p[4..4 + |c.id|] == AsciiBytes(c.id)
    ensures p[4 + |c.id|] == |c.password|
    ensures p[5 + |c.id|..5 + |c.id| + |c.password|] == AsciiBytes(c.password)
    ensures p[5 + |c.id| + |c.password|] == func
    ensures p[6 + |c.id| + |c.password|..|p| - 2] == payload
    ensures p[|p| - 2..] == Checksum(p[..|p| - 2])
  {
    var body := LoginPacket(c) + [func] + payload;
    assert body[..2] == Prefix;
    body + Checksum(body)
  }

  /** Every built packet passes `_verify_checksum`. */
  lemma BuiltPacketVerifies(c: Credentials, func: Byte, payload: seq<Byte>)
    requires ValidCredentials(c)
    ensures VerifyChecksum(BuildPacket(c, func, payload)) == Ok(true)
  {
  }

  /** The id-length octet describes the id only for 16-character ids. */
  lemma SizeIdMatchesOnlySixteen(c: Credentials, func: Byte, payload: seq<Byte>)
    requires ValidCredentials(c)
    ensures BuildPacket(c, func, payload)[3] == |c.id| <==> |c.id| == 16
  {
  }

  /** A worked example: id "A1", password "pw", a read of commands 01 and 02.
      The octet after the protocol type is 10 whatever the id's length; the
      octets after the prefix sum to 0x171, sent as 71 01. */
  lemma ExampleReadPacket()
    ensures BuildPacket(Credentials("A1", "pw"), FuncRead, [0x01, 0x02]) ==
      [0xFD, 0xFD, 0x02, 0x10, 0x41, 0x31, 0x02, 0x70, 0x77, 0x01, 0x01, 0x02, 0x71, 0x01]
  {
    ExampleBody();
    ExampleChecksum();
    assert ExampleBodyOctets + [0x71, 0x01] ==
      [0xFD, 0xFD, 0x02, 0x10, 0x41, 0x31, 0x02, 0x70, 0x77, 0x01, 0x01, 0x02, 0x71, 0x01];
  }

  const ExampleBodyOctets: seq<Byte> :=
    [0xFD, 0xFD, 0x02, 0x10, 0x41, 0x31, 0x02, 0x70, 0x77, 0x01, 0x01, 0x02]

  lemma ExampleBody()
    ensures LoginPacket(Credentials("A1", "pw")) + [FuncRead] + [0x01, 0x02] == ExampleBodyOctets
  {
    var c := Credentials("A1", "pw");
    assert AsciiBytes(c.id) == [0x41, 0x31];
    assert AsciiBytes(c.password) == [0x70, 0x77];
  }

  lemma ExampleChecksum()
    ensures Checksum(ExampleBodyOctets) == [0x71, 0x01]
  {
    var t := ExampleBodyOctets[2..];
    assert Sum(t[9..]) == 2;
    assert Sum(t[8..]) == 3;
    assert Sum(t[7..]) == 4;
    assert Sum(t[6..]) == 123;
    assert Sum(t[5..]) == 235;
    assert Sum(t[4..]) == 237;
    assert Sum(t[3..]) == 286;
    assert Sum(t[2..]) == 351;
    assert Sum(t[1..]) == 367;
    assert Sum(t[0..]) == 369;
    assert t[0..] == t;
    assert Checksum16(0x171) == [0x71, 0x01];
  }
}

=== FILE: response_v2.dfy ===
/** Responses of the V2 protocol (`SikuV2Api._parse_response` in api_v2.py).
    A response has the request's layout with the result function 0x06; its
    payload is a stream of fields, each a command code and its value, read by a
    cursor up to the two checksum octets. Four octets are field markers:

      FC  change base function  -- refused
      FD  invalid command       -- FD cmd; the command is stored with an empty value
      FE  explicit value size   -- FE n cmd v1..vn; the value is stored reversed
      FF  high byte             -- refused

    any other octet c starts a plain field `c v`. */
module ResponseV2 {
  import opened Base
  import opened PacketV2

  const MarkerChangeFunc: Byte := 0xFC
  const MarkerInvalid: Byte := 0xFD
  const MarkerValueSize: Byte := 0xFE
  const MarkerHighByte: Byte := 0xFF

  /** The `data` dict: command code to value octets. */
  type FieldMap = map<Byte, seq<Byte>>

  /** One pass of the field loop at cursor `i`: the cursor after the field and
      the dictionary with the field stored, or the error of a refused marker.
      Every index read is inside the list, because the loop only runs while
      `i < len(hexlist) - 2`; an explicit size running past the end is cut
      short by the slice. */
  function ReadField(b: seq<Byte>, i: nat, acc: FieldMap): (r: Result<(nat, FieldMap)>)
    requires i + 2 < |b|
    ensures r.Err? <==> b[i] == MarkerChangeFunc || b[i] == MarkerHighByte
    ensures r.Err? ==> r.error == (if b[i] == MarkerChangeFunc then ChangeBaseFunctionUnsupported
                                   else HighByteUnsupported)
    ensures r.Ok? ==> r.value.0 >= i + 2
  {
    if b[i] == MarkerChangeFunc then Err(ChangeBaseFunctionUnsupported)
    else if b[i] == MarkerInvalid then Ok((i + 2, acc[b[i + 1] := []]))
    else if b[i] == MarkerValueSize then
      var n := b[i + 1];
      Ok((i + 3 + n, acc[b[i + 2] := Reverse(b[i + 3..Min(i + 3 + n, |b|)])]))
    else if b[i] == MarkerHighByte then Err(HighByteUnsupported)
    else Ok((i + 2, acc[b[i] := [b[i + 1]]]))
  }

  /** The field loop (`while i < len(hexlist) - 2`) from cursor `i`, with the
      fields read so far in `acc`. The cursor grows by at least two per field,
      so the loop ends; it fails only on a refused marker. */
  function ParseFields(b: seq<Byte>, i: nat, acc: FieldMap): (r: Result<FieldMap>)
    ensures r.Err? ==> r.error == ChangeBaseFunctionUnsupported || r.error == HighByteUnsupported
    ensures i + 2 < |b| && b[i] == MarkerChangeFunc ==> r == Err(ChangeBaseFunctionUnsupported)
    ensures i + 2 < |b| && b[i] == MarkerHighByte ==> r == Err(HighByteUnsupported)
    ensures i + 2 >= |b| ==> r == Ok(acc)
    decreases |b| - i
  {
    if i + 2 >= |b| then Ok(acc)
    else
      var step :- ReadField(b, i, acc);
      ParseFields(b, step.0, step.1)
  }

  /** Index of the password-length octet reached by skipping the id block:
      `start = 3; start += 1 + int(hexlist[3], 16)`. */
  function PasswordAt(b: seq<Byte>): nat
    requires |b| >= 4
  {
    b[3] as nat + 4
  }

  /** Index of the function octet reached by skipping the password block. */
  function FunctionAt(b: seq<Byte>): nat
    requires |b| >= 4 && PasswordAt(b) < |b|
  {
    PasswordAt(b) + 1 + b[PasswordAt(b)] as nat
  }

  /** The header checks of `_parse_response`, then the field loop. */
  predicate HeaderOk(b: seq<Byte>) {
    && |b| >= 4
    && b[..2] == Prefix
    && b[2] == ProtocolType
    && PasswordAt(b) < |b|
    && FunctionAt(b) < |b|
    && b[FunctionAt(b)] == FuncResult
  }

  /** `_parse_response`. Failures: a wrong prefix (also for fewer than two
      octets, whose join cannot equal "FDFD"), a wrong protocol type, a skip
      that runs past the end (IndexError, which the `except KeyError` does
      not catch), a wrong result function, a refused marker. */
  function ParseResponse(b: seq<Byte>): (r: Result<FieldMap>)
    ensures HeaderOk(b) ==> r == ParseFields(b, FunctionAt(b) + 1, map[])
    ensures r.Ok? ==> HeaderOk(b)
    ensures |b| < 2 || b[..2] != Prefix ==> r == Err(InvalidPrefix)
    ensures |b| >= 3 && b[..2] == Prefix && b[2] != ProtocolType ==> r == Err(InvalidProtocolType)
    ensures |b| == 2 && b[..2] == Prefix ==> r == Err(IndexOutOfRange)
    ensures |b| >= 3 && b[..2] == Prefix && b[2] == ProtocolType ==>
      (|b| == 3 || PasswordAt(b) >= |b| || FunctionAt(b) >= |b| ==> r == Err(IndexOutOfRange))
    ensures |b| >= 4 && b[..2] == Prefix && b[2] == ProtocolType && PasswordAt(b) < |b| ==>
      (FunctionAt(b) < |b| && b[FunctionAt(b)] != FuncResult ==> r == Err(InvalidResultFunction))
  {
    if |b| < 2 || b[..2] != Prefix then Err(InvalidPrefix)
    else if |b| < 3 then Err(IndexOutOfRange)
    else if b[2] != ProtocolType then Err(InvalidProtocolType)
    else if |b| < 4 || PasswordAt(b) >= |b| || FunctionAt(b) >= |b| then Err(IndexOutOfRange)
    else if b[FunctionAt(b)] != FuncResult then Err(InvalidResultFunction)
    else ParseFields(b, FunctionAt(b) + 1, map[])
  }

  /** With a 16-character id, the two length-prefixed skips land on the
      function octet of a built packet. */
  lemma HeaderSkipLandsOnFunction(c: Credentials, func: Byte, payload: seq<Byte>)
    requires ValidCredentials(c) && |c.id| == 16
    ensures var p := BuildPacket(c, func, payload);
      && PasswordAt(p) == 4 + |c.id|
      && FunctionAt(p) == 5 + |c.id| + |c.password|
      && p[FunctionAt(p)] == func
  {
  }

  // ---------------------------------------------------------------------
  // A reference encoding of field streams, and the parser as its inverse.

  /** One response field as the device writes it. */
  datatype Field =
    | Plain(cmd: Byte, octet: Byte)       // cmd octet
    | Rejected(cmd: Byte)                 // FD cmd
    | Sized(cmd: Byte, wire: seq<Byte>)   // FE |wire| cmd wire, stored reversed

  /** A field the device can write: a plain command is no marker and an
      explicit size fits in one octet. */
  predicate WellFormed(f: Field) {
    match f
    case Plain(cmd, _) => cmd < MarkerChangeFunc
    case Rejected(_) => true
    case Sized(_, wire) => |wire| < 256
  }

  /** Every field of the stream is well formed. */
  predicate AllWellFormed(fs: seq<Field>) {
    |fs| == 0 || (WellFormed(fs[0]) && AllWellFormed(fs[1..]))
  }

  function EncodeField(f: Field): (e: seq<Byte>)
    requires WellFormed(f)
    ensures |e| >= 2
  {
    match f
    case Plain(cmd, octet) => [cmd, octet]
    case Rejected(cmd) => [MarkerInvalid, cmd]
    case Sized(cmd, wire) => [MarkerValueSize, |wire|, cmd] + wire
  }

  function EncodeFields(fs: seq<Field>): seq<Byte>
    requires AllWellFormed(fs)
  {
    if |fs| == 0 then [] else EncodeField(fs[0]) + EncodeFields(fs[1..])
  }

  /** The value `data.update({cmd: value})` stores for a field. */
  function Stored(f: Field): seq<Byte> {
    match f
    case Plain(_, octet) => [octet]
    case Rejected(_) => []
    case Sized(_, wire) => Reverse(wire)
  }

  /** The dictionary the fields build, later fields overwriting earlier ones. */
  function Apply(acc: FieldMap, fs: seq<Field>): FieldMap
    decreases |fs|
  {
    if |fs| == 0 then acc else Apply(acc[fs[0].cmd := Stored(fs[0])], fs[1..])
  }

  /** For each command the last field carrying it decides its value. */
  lemma {:induction false} ApplyLastWins(acc: FieldMap, fs: seq<Field>, j: nat)
    requires j < |fs|
    requires forall l :: j < l < |fs| ==> fs[l].cmd != fs[j].cmd
    ensures fs[j].cmd in Apply(acc, fs) && Apply(acc, fs)[fs[j].cmd] == Stored(fs[j])
    decreases j
  {
    var acc' := acc[fs[0].cmd := Stored(fs[0])];
    if j == 0 {
      ApplyKeeps(acc', fs[1..], fs[0].cmd);
    } else {
      ApplyLastWins(acc', fs[1..], j - 1);
    }
  }

  /** Fields that never name `k` leave its entry alone. */
  lemma {:induction false} ApplyKeeps(acc: FieldMap, fs: seq<Field>, k: Byte)
    requires k in acc
    requires forall l :: 0 <= l < |fs| ==> fs[l].cmd != k
    ensures k in Apply(acc, fs) && Apply(acc, fs)[k] == acc[k]
    decreases |fs|
  {
    if |fs| > 0 {
      ApplyKeeps(acc[fs[0].cmd := Stored(fs[0])], fs[1..], k);
    }
  }

  /** A step that succeeds, moving the cursor to `next` with `acc` stored. */
  predicate Steps(r: Result<(nat, FieldMap)>, next: nat, acc: FieldMap) {
    r.Ok? && r.value.0 == next && r.value.1 == acc
  }

  /** One well-formed field at the cursor is read back as written. */
  lemma ReadOneField(b: seq<Byte>, i: nat, f: Field, acc: FieldMap)
    requires WellFormed(f)
    requires i + |EncodeField(f)| + 2 <= |b| && b[i..i + |EncodeField(f)|] == EncodeField(f)
    ensures Steps(ReadField(b, i, acc), i + |EncodeField(f)|, acc[f.cmd := Stored(f)])
  {
    var e := EncodeField(f);
    SliceAt(b, i, e, 0);
    SliceAt(b, i, e, 1);
    match f
    case Plain(cmd, octet) =>
      ReadPlain(b, i, acc);
    case Rejected(cmd) =>
      ReadRejected(b, i, acc);
    case Sized(cmd, wire) =>
      SliceAt(b, i, e, 2);
      SliceFrom(b, i, e, 3);
      ReadSized(b, i, wire, acc);
  }

  /** A plain field at any cursor the loop visits, also one whose value is
      the first checksum octet. */
  lemma ReadPlain(b: seq<Byte>, i: nat, acc: FieldMap)
    requires i + 2 < |b| && b[i] < MarkerChangeFunc
    ensures Steps(ReadField(b, i, acc), i + 2, acc[b[i] := [b[i + 1]]])
  {
  }

  /** An `FD cmd` field at any cursor the loop visits, also one whose command
      is the first checksum octet. */
  lemma ReadRejected(b: seq<Byte>, i: nat, acc: FieldMap)
    requires i + 2 < |b| && b[i] == MarkerInvalid
    ensures Steps(ReadField(b, i, acc), i + 2, acc[b[i + 1] := []])
  {
  }

  /** An `FE n cmd v1..vn` field whose value fits in the datagram, also one
      whose value runs into the checksum octets; `SizedFieldClamps` covers
      the value that runs past the end. */
  lemma ReadSized(b: seq<Byte>, i: nat, wire: seq<Byte>, acc: FieldMap)
    requires |wire| < 256 && i + 3 + |wire| <= |b|
    requires b[i] == MarkerValueSize && b[i + 1] == |wire|
    requires b[i + 3..i + 3 + |wire|] == wire
    ensures Steps(ReadField(b, i, acc), i + 3 + |wire|, acc[b[i + 2] := Reverse(wire)])
  {
    assert Min(i + 3 + b[i + 1], |b|) == i + 3 + |wire|;
  }

  lemma SliceAt<T>(b: seq<T>, i: nat, e: seq<T>, k: nat)
    requires i + |e| <= |b| && b[i..i + |e|] == e && k < |e|
    ensures b[i + k] == e[k]
  {
    assert b[i..i + |e|][k] == b[i + k];
  }

  lemma SliceFrom<T>(b: seq<T>, i: nat, e: seq<T>, k: nat)
    requires i + |e| <= |b| && b[i..i + |e|] == e && k <= |e|
    ensures b[i + k..i + |e|] == e[k..]
  {
    assert b[i + k..i + |e|] == b[i..i + |e|][k..];
  }

  /** The octets from cursor `i` are the encodings of `fs`, one after the
      other, followed by exactly the two checksum octets. */
  predicate FieldsAt(b: seq<Byte>, i: nat, fs: seq<Field>)
    decreases |fs|
  {
    if |fs| == 0 then i + 2 == |b|
    else
      && WellFormed(fs[0])
      && i + |EncodeField(fs[0])| + 2 <= |b|
      && b[i..i + |EncodeField(fs[0])|] == EncodeField(fs[0])
      && FieldsAt(b, i + |EncodeField(fs[0])|, fs[1..])
  }

  /** A stream of well-formed fields followed by exactly the two checksum
      octets parses to the dictionary the fields describe. */
  lemma {:induction false} ParseFieldsAt(b: seq<Byte>, i: nat, fs: seq<Field>, acc: FieldMap)
    requires FieldsAt(b, i, fs)
    ensures ParseFields(b, i, acc) == Ok(Apply(acc, fs))
    decreases |fs|
  {
    if |fs| > 0 {
      var next, acc' := ParseFieldsAtStep(b, i, fs, acc);
      ParseFieldsAt(b, next, fs[1..], acc');
    }
  }

  /** The first field of the layout: the loop moves past it to the layout of
      the remaining fields, having stored it as `Apply` does. */
  lemma ParseFieldsAtStep(b: seq<Byte>, i: nat, fs: seq<Field>, acc: FieldMap) returns (next: nat, acc': FieldMap)
    requires |fs| > 0 && FieldsAt(b, i, fs)
    ensures FieldsAt(b, next, fs[1..])
    ensures ParseFields(b, i, acc) == ParseFields(b, next, acc')
    ensures Apply(acc, fs) == Apply(acc', fs[1..])
  {
    next, acc' := i + |EncodeField(fs[0])|, acc[fs[0].cmd := Stored(fs[0])];
    ReadOneField(b, i, fs[0], acc);
    ParseStep(b, i, acc, next, acc');
  }

  /** A successful step hands the loop on to the next cursor. */
  lemma ParseStep(b: seq<Byte>, i: nat, acc: FieldMap, next: nat, acc': FieldMap)
    requires i + 2 < |b| && Steps(ReadField(b, i, acc), next, acc')
    ensures ParseFields(b, i, acc) == ParseFields(b, next, acc')
  {
  }

  /** The concatenated encoding of a stream lays its fields out one after the
      other. */
  lemma {:induction false} EncodedFieldsAt(b: seq<Byte>, i: nat, fs: seq<Field>)
    requires AllWellFormed(fs)
    requires i + |EncodeFields(fs)| + 2 == |b| && b[i..i + |EncodeFields(fs)|] == EncodeFields(fs)
    ensures FieldsAt(b, i, fs)
    decreases |fs|
  {
    if |fs| > 0 {
      EncodeFieldsCons(fs);
      EncodedFieldsHead(b, i, fs);
      EncodedFieldsTail(b, i, fs);
      EncodedFieldsAt(b, i + |EncodeField(fs[0])|, fs[1..]);
    }
  }

  lemma EncodeFieldsCons(fs: seq<Field>)
    requires |fs| > 0 && AllWellFormed(fs)
    ensures WellFormed(fs[0]) && AllWellFormed(fs[1..])
    ensures EncodeFields(fs) == EncodeField(fs[0]) + EncodeFields(fs[1..])
  {
  }

  lemma EncodedFieldsHead(b: seq<Byte>, i: nat, fs: seq<Field>)
    requires |fs| > 0 && AllWellFormed(fs)
    requires i + |EncodeFields(fs)| <= |b| && b[i..i + |EncodeFields(fs)|] == EncodeFields(fs)
    ensures |EncodeFields(fs)| == |EncodeField(fs[0])| + |EncodeFields(fs[1..])|
    ensures b[i..i + |EncodeField(fs[0])|] == EncodeField(fs[0])
  {
    EncodeFieldsCons(fs);
    SliceTo(b, i, EncodeFields(fs), |EncodeField(fs[0])|);
  }

  lemma SliceTo<T>(b: seq<T>, i: nat, e: seq<T>, k: nat)
    requires i + |e| <= |b| && b[i..i + |e|] == e && k <= |e|
    ensures b[i..i + k] == e[..k]
  {
    assert b[i..i + k] == b[i..i + |e|][..k];
  }

  lemma EncodedFieldsTail(b: seq<Byte>, i: nat, fs: seq<Field>)
    requires |fs| > 0 && AllWellFormed(fs)
    requires i + |EncodeFields(fs)| <= |b| && b[i..i + |EncodeFields(fs)|] == EncodeFields(fs)
    ensures b[i + |EncodeField(fs[0])|..i + |EncodeField(fs[0])| + |EncodeFields(fs[1..])|] == EncodeFields(fs[1..])
  {
    EncodeFieldsCons(fs);
    SliceFrom(b, i, EncodeFields(fs), |EncodeField(fs[0])|);
  }

  /** A device response carrying the given fields, echoing the credentials. */
  function BuildResponse(c: Credentials, fs: seq<Field>): seq<Byte>
    requires ValidCredentials(c)
    requires AllWellFormed(fs)
  {
    BuildPacket(c, FuncResult, EncodeFields(fs))
  }

  /** Round trip: with a 16-character id, parsing a response built from
      well-formed fields yields exactly the dictionary of those fields. */
  lemma ParseBuiltResponse(c: Credentials, fs: seq<Field>)
    requires ValidCredentials(c) && |c.id| == 16
    requires AllWellFormed(fs)
    ensures ParseResponse(BuildResponse(c, fs)) == Ok(Apply(map[], fs))
  {
    var payload := EncodeFields(fs);
    var p := BuildResponse(c, fs);
    HeaderSkipLandsOnFunction(c, FuncResult, payload);
    EncodedFieldsAt(p, 6 + |c.id| + |c.password|, fs);
    ParseFieldsAt(p, 6 + |c.id| + |c.password|, fs, map[]);
  }

  /** An explicit size running past the end of the list is not refused: the
      value is whatever the slice still holds, and the loop stops. */
  lemma SizedFieldClamps(b: seq<Byte>, i: nat, acc: FieldMap)
    requires i + 2 < |b| && b[i] == MarkerValueSize
    requires i + 3 + b[i + 1] > |b|
    ensures ParseFields(b, i, acc) == Ok(acc[b[i + 2] := Reverse(b[i + 3..])])
  {
    assert Min(i + 3 + b[i + 1], |b|) == |b|;
    assert b[i + 3..|b|] == b[i + 3..];
  }

  /** The checksum octets never decide a step: with the last two octets
      replaced, the step at the same cursor fails alike and, when it succeeds,
      moves to the same cursor or to one where both loops stop. */
  lemma ReadFieldIgnoresChecksum(b: seq<Byte>, t: seq<Byte>, i: nat, acc: FieldMap, acc': FieldMap)
    requires |t| == 2 && i + 2 < |b|
    ensures var r, r' := ReadField(b, i, acc), ReadField(b[..|b| - 2] + t, i, acc');
      && (r.Err? <==> r'.Err?)
      && (r.Ok? ==> r.value.0 == r'.value.0 || (r.value.0 + 2 >= |b| && r'.value.0 + 2 >= |b|))
  {
    var b' := b[..|b| - 2] + t;
    assert b'[i] == b[i];
    if i + 1 < |b| - 2 {
      assert b'[i + 1] == b[i + 1];
    }
  }

  /** Markers are only dispatched on octets before the checksum: whether the
      field loop fails does not depend on the last two octets. */
  lemma {:induction false} MarkersOnlyBeforeChecksum(b: seq<Byte>, t: seq<Byte>, i: nat, acc: FieldMap, acc': FieldMap)
    requires |b| >= 2 && |t| == 2
    ensures ParseFields(b, i, acc).Err? <==> ParseFields(b[..|b| - 2] + t, i, acc').Err?
    decreases |b| - i
  {
    var b' := b[..|b| - 2] + t;
    if i + 2 < |b| {
      ReadFieldIgnoresChecksum(b, t, i, acc, acc');
      var r, r' := ReadField(b, i, acc), ReadField(b', i, acc');
      if r.Ok? && r.value.0 == r'.value.0 {
        MarkersOnlyBeforeChecksum(b, t, r.value.0, r.value.1, r'.value.1);
      }
    }
  }
}

=== FILE: tables.dfy ===
/** The protocol tables both client classes import from const.py, which is not
    part of this model: DIRECTIONS (direction code text to direction name),
    FAN_SPEEDS and DIRECTION_ALTERNATING. Their values are left open; a
    `Constants` value stands for any choice of them. */
module Tables {
  import opened Base
  import Hex

  datatype Constants = Constants(
    directions: seq<(string, string)>,  // DIRECTIONS entries, code text first, in insertion order
    fanSpeeds: seq<string>,             // FAN_SPEEDS
    alternating: string                 // DIRECTION_ALTERNATING
  )

  /** What a dict of codes written as hex texts guarantees: every key occurs
      once, and every code and speed is text that `bytes.fromhex` accepts. */
  predicate Valid(k: Constants) {
    && (forall i, j :: 0 <= i < j < |k.directions| ==> k.directions[i].0 != k.directions[j].0)
    && (forall i :: 0 <= i < |k.directions| ==> Hex.IsHex(k.directions[i].0))
    && (forall i :: 0 <= i < |k.fanSpeeds| ==> Hex.IsHex(k.fanSpeeds[i]))
  }

  /** DIRECTIONS as a dictionary. */
  function Directions(k: Constants): map<string, string> {
    DictOf(k.directions)
  }

  /** `name in DIRECTIONS.values()`. */
  predicate IsDirectionName(k: Constants, name: string) {
    exists j :: 0 <= j < |k.directions| && k.directions[j].1 == name
  }

  /** `list(DIRECTIONS.values()).index(name)`: the first entry naming `name`,
      or the number of entries when none does. */
  function FirstNamed(entries: seq<(string, string)>, name: string): (j: nat)
    ensures j <= |entries|
    ensures j < |entries| ==> entries[j].1 == name
    ensures forall i :: 0 <= i < j ==> entries[i].1 != name
  {
    if |entries| == 0 then 0
    else if entries[0].1 == name then 0
    else 1 + FirstNamed(entries[1..], name)
  }

  /** With unique keys, each entry's key maps to that entry's name. */
  lemma {:induction false} DictOfEntry(entries: seq<(string, string)>, j: nat)
    requires forall a, b :: 0 <= a < b < |entries| ==> entries[a].0 != entries[b].0
    requires j < |entries|
    ensures DictOf(entries)[entries[j].0] == entries[j].1
  {
    var n := |entries| - 1;
    if j < n {
      DictOfEntry(entries[..n], j);
      assert entries[..n][j] == entries[j];
    }
  }

  /** The direction argument of `direction()` in both versions: a direction name
      is first replaced by the code of the first entry carrying it; what is then
      not a code of DIRECTIONS is refused (ValueError). */
  function ResolveDirection(k: Constants, d: string): (r: Option<string>)
    requires Valid(k)
    ensures r.Some? <==> IsDirectionName(k, d) || d in Directions(k)
    ensures r.Some? ==> r.value in Directions(k) && Hex.IsHex(r.value)
    ensures IsDirectionName(k, d) ==> Directions(k)[r.value] == d
    ensures IsDirectionName(k, d) ==> r == Some(k.directions[FirstNamed(k.directions, d)].0)
    ensures !IsDirectionName(k, d) && d in Directions(k) ==> r == Some(d)
  {
    var j := FirstNamed(k.directions, d);
    if j < |k.directions| then
      DictOfEntry(k.directions, j);
      Some(k.directions[j].0)
    else if d in Directions(k) then Some(d)
    else None
  }
}

=== FILE: translate_v2.dfy ===
/** The status record of the V2 client (`SikuV2Api._translate_response` in
    api_v2.py). Each lookup that raises KeyError falls back to a default; an
    empty speed value, which the FD marker stores, makes `int("", 16)` raise a
    ValueError that nothing catches. */
module TranslateV2 {
  import opened Base
  import Hex
  import opened Tables
  import opened ResponseV2

  const CmdOnOff: Byte := 0x01
  const CmdSpeed: Byte := 0x02
  const CmdCurrentHumidity: Byte := 0x25
  const CmdDirection: Byte := 0xB7
  const CmdDeviceType: Byte := 0xB9
  const CmdMode: Byte := 0x07

  const PowerOff: Byte := 0x00
  const PowerOn: Byte := 0x01
  const PowerToggle: Byte := 0x02

  const ModeOff: Byte := 0x01
  const ModeSleep: Byte := 0x01
  const ModeParty: Byte := 0x02

  /** PRESET_MODE_AUTO, PRESET_MODE_SLEEP and PRESET_MODE_PARTY. */
  datatype Preset = Auto | Sleep | Party

  /** The entries of the MODES dict display, in source order. MODE_OFF and
      MODE_SLEEP are both "01". */
  const ModeEntries: seq<(seq<Byte>, Preset)> :=
    [([ModeOff], Auto), ([ModeSleep], Sleep), ([ModeParty], Party)]

  /** MODES, keyed by the value octets whose text is the key. */
  function Modes(): map<seq<Byte>, Preset> {
    DictOf(ModeEntries)
  }

  /** The dict `_translate_response` returns; `speed` is the number whose
      two-digit decimal rendering the source returns. */
  datatype Status = Status(
    isOn: bool,
    speed: nat,
    oscillating: bool,
    direction: Option<string>,
    mode: Preset)

  /** `DIRECTIONS[data[COMMAND_DIRECTION]]`: the direction value as upper-case
      hex text, looked up as a code. */
  function DirectionName(k: Constants, data: FieldMap): Option<string> {
    if CmdDirection in data && Hex.Encode(data[CmdDirection], true) in Directions(k)
    then Some(Directions(k)[Hex.Encode(data[CmdDirection], true)])
    else None
  }

  function Translate(k: Constants, data: FieldMap): (r: Result<Status>)
    ensures r.Err? <==> CmdSpeed in data && data[CmdSpeed] == []
    ensures r.Err? ==> r.error == EmptySpeedValue
    ensures r.Ok? ==> (r.value.isOn <==> CmdOnOff in data && data[CmdOnOff] == [PowerOn])
    ensures r.Ok? ==> r.value.direction == DirectionName(k, data)
    ensures r.Ok? && r.value.direction.None? ==> r.value.oscillating
  {
    if CmdSpeed in data && data[CmdSpeed] == [] then Err(EmptySpeedValue)
    else
      var isOn := CmdOnOff in data && data[CmdOnOff] == [PowerOn];
      var speed := if CmdSpeed in data then BigEndian(data[CmdSpeed]) else 0;
      var direction := DirectionName(k, data);
      var oscillating := if direction.Some? then direction.value == k.alternating else true;
      var mode := if CmdMode in data && data[CmdMode] in Modes() then Modes()[data[CmdMode]] else Auto;
      Ok(Status(isOn, speed, oscillating, direction, mode))
  }

  /** The duplicate key of MODES: the later entry wins, so mode 01 reads as
      sleep, 02 as party, and no other value is a key. */
  lemma ModesTable()
    ensures Modes() == map[[0x01] := Sleep, [0x02] := Party]
  {
    assert ModeEntries[..0] == [];
    assert ModeEntries[..1][..0] == [];
    assert ModeEntries[..2][..1] == ModeEntries[..1];
    assert ModeEntries[..3][..2] == ModeEntries[..2];
    assert DictOf(ModeEntries[..1]) == map[[0x01] := Auto];
    assert DictOf(ModeEntries[..2]) == map[[0x01] := Sleep];
  }

  /** A response without the on/off, speed, direction and mode fields degrades
      to the defaults: off, speed "00", no direction but oscillating, auto. */
  lemma TranslateDefaults(k: Constants, data: FieldMap)
    requires CmdOnOff !in data && CmdSpeed !in data && CmdDirection !in data && CmdMode !in data
    ensures Translate(k, data) == Ok(Status(false, 0, true, None, Auto))
  {
  }

  /** Status fields as the source documents them, for every field map: speed is
      the value read as a number ("00" when absent), oscillation follows the
      direction name, and the mode is sleep for 01, party for 02, auto
      otherwise. */
  lemma TranslateFields(k: Constants, data: FieldMap)
    requires Translate(k, data).Ok?
    ensures var s := Translate(k, data).value;
      && s.speed == (if CmdSpeed in data then BigEndian(data[CmdSpeed]) else 0)
      && (s.direction.Some? ==> (s.oscillating <==> s.direction.value == k.alternating))
      && s.mode == (if CmdMode in data && data[CmdMode] == [0x01] then Sleep
                    else if CmdMode in data && data[CmdMode] == [0x02] then Party
                    else Auto)
  {
    ModesTable();
  }

  /** The translation reads nothing but the on/off, speed, direction and mode
      fields: maps that agree on those translate alike. */
  lemma TranslateReadsStatusFieldsOnly(k: Constants, data: FieldMap, data': FieldMap)
    requires forall cmd :: cmd in {CmdOnOff, CmdSpeed, CmdDirection, CmdMode} ==>
      (cmd in data <==> cmd in data') && (cmd in data ==> data[cmd] == data'[cmd])
    ensures Translate(k, data) == Translate(k, data')
  {
    assert CmdOnOff in {CmdOnOff, CmdSpeed, CmdDirection, CmdMode};
    assert CmdSpeed in {CmdOnOff, CmdSpeed, CmdDirection, CmdMode};
    assert CmdDirection in {CmdOnOff, CmdSpeed, CmdDirection, CmdMode};
    assert CmdMode in {CmdOnOff, CmdSpeed, CmdDirection, CmdMode};
  }
}

=== FILE: transport.dfy ===
/** The UDP exchange both client classes perform per command: one datagram
    sent, one datagram received through `recvfrom(limit)`, with a 10-second
    timeout. The device and the network are a parameter: a function from every
    datagram sent so far to the reply to the newest one, so a device may answer
    according to its whole history. */
module Transport {
  import opened Base

  /** What the `recvfrom` of one exchange yields. */
  datatype Reply =
    | Datagram(octets: seq<Byte>)
    | NoReply       // nothing arrived within the timeout
    | Fault         // the socket raised

  /** The datagrams a client has sent, oldest first. */
  type Trace = seq<seq<Byte>>

  type Device = Trace -> Reply

  /** A call's effect on the trace together with its outcome. */
  datatype Run<+T> = Run(sent: Trace, result: Result<T>)

  /** Send `datagram` and receive at most `limit` octets of the reply: a longer
      datagram is cut to `limit` octets, as `recvfrom` does. */
  function Exchange(dev: Device, sent: Trace, datagram: seq<Byte>, limit: nat): (r: Run<seq<Byte>>)
    ensures r.sent == sent + [datagram]
    ensures r.result.Ok? <==> dev(sent + [datagram]).Datagram?
    ensures r.result.Ok? ==>
      var d := dev(sent + [datagram]).octets;
      |r.result.value| == Min(limit, |d|) && r.result.value == d[..|r.result.value|]
    ensures dev(sent + [datagram]).NoReply? ==> r.result == Err(Timeout)
    ensures dev(sent + [datagram]).Fault? ==> r.result == Err(SocketFailure)
    ensures dev(sent + [datagram]).Datagram? && |dev(sent + [datagram]).octets| <= limit ==>
              r.result == Ok(dev(sent + [datagram]).octets)
  {
    var sent' := sent + [datagram];
    match dev(sent')
    case Datagram(d) =>
      assert d[..|d|] == d;
      Run(sent', Ok(d[..Min(limit, |d|)]))
    case NoReply => Run(sent', Err(Timeout))
    case Fault => Run(sent', Err(SocketFailure))
  }
}
